=== FILE: README.md ===
# Cloud completion client — Dafny model

This project models the decision logic of the cloud language-model provider
in `crates/language_models/src/provider/cloud.rs`: the client that sends
completion requests to the relay server, which forwards them to Anthropic,
OpenAI or Google. HTTP, JSON and async plumbing are abstracted away, so every
piece is a pure function over immutable datatypes:

- **Upstream-error classifier** (`Classifier`): `From<ApiError> for
  LanguageModelCompletionError` and `deserialize_optional_status_code`. It turns
  a failed response into exactly one error kind. The upstream status is chosen
  in a fixed order: explicit `upstream_status`, then the outer status for
  `*_error` codes, then the number in `upstream_http_<n>`, then the outer
  status.
- **Completion orchestration** (`Orchestrator`): `perform_llm_completion`.
  It retries at most once on an expired token, reads the success flags, and
  maps 403/402/other failures. The transport is the list of answers to the
  requests in the order they are sent. Token acquire and refresh are given
  results.
- **Event stream** (`Events`): `response_lines` in its two decode modes, the
  usage and tool-limit trailers, and `map_cloud_completion_events` as a
  state-threading flat-map over a stateful provider mapper.
- **Model list** (`Models`): `State::update_models` with its thinking
  variants, the default and fast-default lookups, and the recommended list.
- **Capability selectors** (`Capabilities`): the `ModelMode` conversion, the
  Anthropic thinking-mode choice, `tool_input_format`,
  `max_token_count_in_burn_mode` and `cache_configuration`.
- **Provider arms** (`Pipeline`): how `stream_completion` composes the pieces,
  and how each arm surfaces a failure.

Supporting modules: `Wrappers` (Option/Result), `Text` (Rust's
`starts_with`/`ends_with`/`strip_prefix` and `str::parse::<u16>`), `Http`
(status codes, the headers read, bodies as `read_line` results), `Errors`
(the error vocabulary).

Modelling choices:

- `StatusCode` is an integer in 100..=999, the range `StatusCode::from_u16`
  accepts.
- `upstream_status` must first deserialize as `Option<u16>`. A number outside
  0..=65535 makes the whole envelope fail to parse, so the response falls
  back. A `u16` that is not a valid status is dropped to `None`.
- The serde_json decoders are parameters of type `string -> Option<...>`:
  the envelope decoder and the line decoders in both modes.
  `Plan::from_str` and `ModelRequestUsage::from_headers` are applied in
  advance and their results stored as header fields.
- `from_http_status` is kept uninterpreted. The `FromHttpStatus` constructor
  records its arguments.
- A transport list that runs out counts as a failed `send`.
- `parse::<u16>` accepts a leading '+' and leading zeros, so
  `upstream_http_+429` and `upstream_http_0429` also give 429.
- When the body is not an upstream envelope, the result is whatever
  `from_http_status` returns for the outer status.
- The retry hint can make the conversion panic (see Findings).

## Model

| member | source | states |
|---|---|---|
| Text.StripPrefix | crates/language_models/src/provider/cloud.rs:707-709 | the rest after the prefix exists iff the code starts with it, and prefix + rest is the code |
| Text.ParseU16 | crates/language_models/src/provider/cloud.rs:710 | parsing succeeds iff the text after an optional '+' is non-empty, all digits and at most 65535, and then yields that digit value |
| Text.ParseU16OfDecimal | crates/language_models/src/provider/cloud.rs:707-710 | parsing the decimal rendering of any 16-bit number gives that number back |
| Text.SignAndLeadingZerosAccepted | crates/language_models/src/provider/cloud.rs:710 | a '+' sign and leading zeros in front of the decimal rendering of a 16-bit number still parse to that number |
| Http.StatusFromU16 | crates/language_models/src/provider/cloud.rs:693 | a number becomes a status code exactly when it lies in 100..=999, unchanged |
| Http.ReadToString | crates/language_models/src/provider/cloud.rs:647-649 | reading the whole body succeeds iff no read fails before end of stream, and then yields the joined text of the reads up to it |
| Http.ReadToStringOfLines | crates/language_models/src/provider/cloud.rs:647-649 | non-empty lines followed by the end of the body or a zero-byte read read back as exactly their joined text |
| Classifier.FromSecsF64 | crates/language_models/src/provider/cloud.rs:718 | converting seconds to a duration returns exactly for values in [0, 2^64) and keeps the value; otherwise it panics |
| Classifier.DeserializeOptionalStatusCode | crates/language_models/src/provider/cloud.rs:688-694 | fails iff the number is not a `u16`; yields a status iff the number is a valid status code, and then that number |
| Classifier.ParseCloudApiError | crates/language_models/src/provider/cloud.rs:677-686 | an envelope results iff the body decodes and its `upstream_status` deserializes as `Option<u16>`; it keeps the code, message and retry hint and the deserialized status |
| Classifier.UpstreamEnvelope | crates/language_models/src/provider/cloud.rs:698-699 | the parsed envelope is taken exactly when its code starts with `upstream_http_` |
| Classifier.CodeSuffixStatus | crates/language_models/src/provider/cloud.rs:707-711 | a status comes out of the code iff it starts with `upstream_http_` and the rest parses as a `u16` that is a valid status, and then it is that number |
| Classifier.ResolveStatus | crates/language_models/src/provider/cloud.rs:700-713 | the status is the outer one, the explicit `upstream_status` or the code's number; an explicit status always wins, and an `_error` code without one gives the outer status (the remaining order in the status lemmas below) |
| Classifier.RetryHint | crates/language_models/src/provider/cloud.rs:718 | corrected (see Findings): the hint is present iff the envelope has a representable `retry_after`, with the same number of seconds; an unrepresentable one is dropped where the source panics |
| Classifier.Classify | crates/language_models/src/provider/cloud.rs:696-731 | upstream error iff the body is an envelope with the upstream prefix, with the message verbatim and the retry hint passed through when representable, dropped otherwise (corrected, see Findings); otherwise exactly `from_http_status(PROVIDER_NAME, outer status, body, None)` |
| Classifier.ClassifyAsWritten | crates/language_models/src/provider/cloud.rs:696-731 | the conversion as written panics iff the upstream envelope carries an unrepresentable retry hint; otherwise it is an upstream error iff the envelope is present, and the status-keyed fallback else (equal to `Classify` by `ClassifyAgreesUnlessPanic`) |
| Classifier.ClassifyAgreesUnlessPanic | crates/language_models/src/provider/cloud.rs:715-719 | the code as written panics exactly for upstream envelopes with an unrepresentable `retry_after`, and agrees with the classifier everywhere else |
| Classifier.ClassifyAsWrittenPanicsOnNegativeRetry | crates/language_models/src/provider/cloud.rs:718 | an `upstream_http_429` body with `retry_after` -1 makes the conversion as written panic |
| Classifier.ExplicitUpstreamStatusWins | crates/language_models/src/provider/cloud.rs:700-701 | a valid explicit `upstream_status` is the status, and changing the outer status changes nothing |
| Classifier.GenericCodeUsesOuterStatus | crates/language_models/src/provider/cloud.rs:702-703 | with no `upstream_status`, a code ending in `_error` reports the outer status |
| Classifier.NumericCodeGivesItsStatus | crates/language_models/src/provider/cloud.rs:692-712 | when `upstream_status` deserializes to nothing, `upstream_http_<n>` reports n for every valid status n |
| Classifier.SuffixStatusIsReported | crates/language_models/src/provider/cloud.rs:692-712 | when `upstream_status` deserializes to nothing (absent, or a `u16` that is not a status) and the code does not end in `_error`, any valid status the code's suffix parses to is the reported status |
| Classifier.NonStatusUpstreamStatusDefersToCode | crates/language_models/src/provider/cloud.rs:692-711 | `upstream_status` 1000 is dropped as no status, so `upstream_http_429` reports 429 |
| Classifier.PaddedAndSignedCodesReportTheirStatus | crates/language_models/src/provider/cloud.rs:707-710 | `upstream_http_0429` and `upstream_http_+429` both report 429 |
| Classifier.UnparsableCodeUsesOuterStatus | crates/language_models/src/provider/cloud.rs:707-712 | with no `upstream_status`, a code suffix that is not a valid status number gives the outer status |
| Classifier.UnparsableBodyFallsBack | crates/language_models/src/provider/cloud.rs:723-729 | a body that is not an envelope gives the status-keyed error with the body verbatim and no retry hint |
| Classifier.OversizedUpstreamStatusFallsBack | crates/language_models/src/provider/cloud.rs:688-694 | an `upstream_status` above 65535 makes the envelope unparsable, so the response falls back |
| Classifier.Upstream429Example | crates/language_models/src/provider/cloud.rs:1470-1495 | `upstream_http_429` with `retry_after` 30.5 under an outer 500 gives status 429 and a 30.5 s hint |
| Orchestrator.ProtoPlan | crates/language_models/src/provider/cloud.rs:635-639 | ZedFree maps to Free, ZedPro to ZedPro, ZedProTrial to ZedProTrial |
| Orchestrator.ProtoPlanRoundTrip | crates/language_models/src/provider/cloud.rs:635-639 | the plan mapping is a bijection |
| Orchestrator.SuccessFlags | crates/language_models/src/provider/cloud.rs:582-604 | status mode iff the server-status header is present; tool-limit flag iff its header is present; no header usage in status mode, header usage otherwise |
| Orchestrator.FailureFor | crates/language_models/src/provider/cloud.rs:618-654 | model-request limit iff 403 with the model-requests resource and a known plan; payment required iff 402; otherwise an `ApiError` with status, full body and headers, or a read failure |
| Orchestrator.PerformLoop | crates/language_models/src/provider/cloud.rs:565-656 | each turn sends at most two requests, the second with the refreshed token; no answer gives a send failure, a success its flags, a non-retried failure `FailureFor` of the answer, and an expired token with no refresh `TokenUnavailable` |
| Orchestrator.PerformLlmCompletion | crates/language_models/src/provider/cloud.rs:554-656 | a failed acquire sends nothing; otherwise one or two requests; `TokenUnavailable` iff the acquire fails or the first answer is expired and the refresh fails; no answer gives a send failure and a first success its flags |
| Orchestrator.FirstFailureIsDispatched | crates/language_models/src/provider/cloud.rs:607-654 | a first failure without the expired-token header ends the call after one request with the failure `FailureFor` assigns |
| Orchestrator.PlainPaymentAndQuotaFailures | crates/language_models/src/provider/cloud.rs:618-644 | without the expired-token header, a 402 ends the call with `PaymentRequired` and a quota 403 with the model-request limit for the reported plan |
| Orchestrator.RetryExactlyOnExpiry | crates/language_models/src/provider/cloud.rs:607-616 | a second request is sent iff the first answer is an expired-token failure and the refresh succeeds; the retry runs with the refresh used up |
| Orchestrator.ExpiryBeforePaymentAndQuota | crates/language_models/src/provider/cloud.rs:607-645 | an expired-token 402 or quota 403 on the first answer is retried rather than reported |
| Orchestrator.SecondExpiryIsTerminal | crates/language_models/src/provider/cloud.rs:607-616 | a second expired-token failure is classified like any failure, after exactly two requests |
| Orchestrator.SuccessComesFromLastAnswer | crates/language_models/src/provider/cloud.rs:580-604 | a success is the last answer received, with its flags |
| Events.DecodeLine | crates/language_models/src/provider/cloud.rs:1122-1126 | in status mode a line decodes as a `CompletionEvent`, otherwise as a bare event wrapped in `Event`; failure carries the line |
| Events.ResponseLines | crates/language_models/src/provider/cloud.rs:1112-1135 | decoded items follow the reads in order; only the last item can be a failure; the stream stops only at end of body, a zero-byte read or a failure |
| Events.UsageUpdatedEvent | crates/language_models/src/provider/cloud.rs:1089-1100 | one usage status with the usage's amount and limit iff usage is present |
| Events.ToolUseLimitReachedEvent | crates/language_models/src/provider/cloud.rs:1102-1110 | one tool-limit status iff the flag is set |
| Events.DecodedStream | crates/language_models/src/provider/cloud.rs:961-965 | the decoded lines unchanged, followed by exactly one status item per trailer present (its shape in `DecodedStreamShape`) |
| Events.WellFormedLinesAllDecoded | crates/language_models/src/provider/cloud.rs:1116-1130 | N decodable lines before end of stream give exactly N items |
| Events.DecodedStreamShape | crates/language_models/src/provider/cloud.rs:963-965 | the chained stream is the N line events, then one usage status iff usage, then one tool-limit status iff the flag; length N + [usage] + [flag] |
| Events.MapItem | crates/language_models/src/provider/cloud.rs:1076-1084 | a failure becomes one error, a status one status update, an event whatever the mapper returns |
| Events.MapCloudCompletionEvents | crates/language_models/src/provider/cloud.rs:1064-1087 | every item that is not a provider event yields its own output, so the output is at least as long as the non-event items (order, state threading and payloads in `MapDistributes` and `MapperSeesPayloads`) |
| Events.MapSingle | crates/language_models/src/provider/cloud.rs:1075-1084 | a one-item stream maps to exactly that item's expansion |
| Events.MapDistributes | crates/language_models/src/provider/cloud.rs:1074-1086 | mapping a concatenation is the concatenation of the mappings, with mapper state carried across, so nothing is reordered or dropped |
| Events.MapperSeesPayloads | crates/language_models/src/provider/cloud.rs:1066-1083 | the mapper is fed exactly the stream's provider events, in order |
| Events.OneForOneWithoutEvents | crates/language_models/src/provider/cloud.rs:1077-1082 | without provider events the output has one item per input at the same position |
| Models.ThinkingVariant | crates/language_models/src/provider/cloud.rs:246-252 | the variant's id is the base id plus `-thinking`, its name the base name plus ` Thinking`, and all other fields are copied |
| Models.ExpandModels | crates/language_models/src/provider/cloud.rs:239-253 | the expanded list has one entry per model plus one per thinking model |
| Models.ExpandModelsPlacesEntries | crates/language_models/src/provider/cloud.rs:241-253 | each model appears in response order with its thinking variant immediately after it |
| Models.FirstIndex | crates/language_models/src/provider/cloud.rs:255-258 | the index found holds the id and no earlier entry does; none found means no entry has the id |
| Models.FindById | crates/language_models/src/provider/cloud.rs:259-262 | a model is found iff some entry has the id, and it is the first such entry |
| Models.Recommended | crates/language_models/src/provider/cloud.rs:263-268 | the recommended list is no longer than the id list |
| Models.RecommendedFollowsIds | crates/language_models/src/provider/cloud.rs:263-268 | the recommended list follows the ids in order, skips unknown ids, and each entry is the first model with its id |
| Models.KnownIdsAreKnown | crates/language_models/src/provider/cloud.rs:266 | only unknown ids are skipped |
| Models.RecommendedMembers | crates/language_models/src/provider/cloud.rs:263-268 | every recommended model is in the model list and was asked for |
| Models.UpdateModels | crates/language_models/src/provider/cloud.rs:238-271 | the models are the expansion of the response; each default is the first model with its id or absent when none matches; the recommended list is the known requested ids in order, each the first model with that id |
| Capabilities.ToAnthropicMode | crates/language_models/src/provider/cloud.rs:101-108 | thinking maps to thinking and default to default |
| Capabilities.AnthropicModeRoundTrip | crates/language_models/src/provider/cloud.rs:101-108 | the mode conversion is a bijection that keeps the thinking budget |
| Capabilities.RequestThinkingMode | crates/language_models/src/provider/cloud.rs:923-929 | thinking with a 4096-token budget iff thinking is allowed and the id ends in `-thinking` |
| Capabilities.ThinkingVariantRequestsThinking | crates/language_models/src/provider/cloud.rs:923-929 | with thinking allowed, the added thinking variant requests thinking and its base model does not |
| Capabilities.ToolInputFormat | crates/language_models/src/provider/cloud.rs:792-802 | the JSON-schema subset exactly for Google |
| Capabilities.MaxTokenCountInBurnMode | crates/language_models/src/provider/cloud.rs:808-813 | the max-mode token count is present iff the model supports max mode and has one, and then it is unchanged |
| Capabilities.CacheConfigurationFor | crates/language_models/src/provider/cloud.rs:815-827 | a cache configuration (2048 tokens, speculative, 4 anchors) exactly for Anthropic |
| Capabilities.ThinkingVariantSharesCapabilities | crates/language_models/src/provider/cloud.rs:247-251 | a thinking variant has its base model's tool format, burn-mode limit and cache configuration |
| Pipeline.SurfaceFailure | crates/language_models/src/provider/cloud.rs:955-958 | a failed response is classified and every other failure is passed on unchanged |
| Pipeline.SurfaceFailureAsWritten | crates/language_models/src/provider/cloud.rs:955-958 | only the Anthropic arm classifies a failed response, and it panics exactly when the as-written classifier panics on that response; the OpenAI and Google arms (their `?` at lines 1006 and 1046) pass every failure on unclassified |
| Pipeline.AnthropicArmPanicsOnNegativeRetry | crates/language_models/src/provider/cloud.rs:955-958 | a failed response whose upstream envelope has `retry_after` -1 makes the Anthropic arm as written panic, while the OpenAI arm passes it on unclassified |
| Pipeline.SurfaceFailureMatchesAnthropicArm | crates/language_models/src/provider/cloud.rs:955-958 | wherever the Anthropic arm does not panic, it surfaces failures as the corrected surfacing does |
| Pipeline.ArmsDisagreeOnUpstreamErrors | crates/language_models/src/provider/cloud.rs:985-1006 | as written, an upstream 429 is classified for Anthropic but passed on raw for OpenAI and Google |
| Pipeline.StreamCompletion | crates/language_models/src/provider/cloud.rs:933-969 | the corrected composition (both Findings rows applied): a stream iff the completion call succeeds, and then the mapped decoded lines followed by the trailer updates; otherwise the call's failure surfaced through the total classifier |
| Pipeline.StreamCompletionAsWritten | crates/language_models/src/provider/cloud.rs:917-1058 | each arm as written: a stream whenever the completion call succeeds; it panics exactly when it is the Anthropic arm, the call fails with a failed response and the as-written classifier panics on it; the OpenAI and Google arms surface failures unclassified |
| Pipeline.StreamCompletionAsWrittenAgrees | crates/language_models/src/provider/cloud.rs:917-1058 | every arm as written yields the corrected stream on success; the Anthropic arm agrees with the corrected composition wherever it returns; the OpenAI and Google arms differ from it exactly on failed responses |
| Pipeline.StreamEndsWithTrailers | crates/language_models/src/provider/cloud.rs:961-968 | the caller-facing stream is the mapped wire events, then a usage update iff usage, then a tool-limit update iff the flag; the mapper never sees the trailers |

## Left out

- UI: `render_accept_terms`, `ConfigurationView`, `ZedAiConfiguration` and the component previews are rendering with no decision logic. `crates/settings_ui/src/settings_ui.rs` is UI wiring and is not part of this model.
- Async plumbing is concurrency glue: the authentication polling loop, the token-refresh subscription, the client-status watcher and the terms-of-service task.
- `RateLimiter` (the concurrency limiter, `RateLimiter::new(4)`): its implementation is not part of this model, so its admission bound is not stated.
- `fetch_models` and the Google `count_tokens` request are network paths. `count_tokens` also builds an `ApiError`, but that path is not modelled.
- Request building is not modelled: the URL, the app-version, content-type, bearer and client-supports-status headers, and the body serialization. Their failures are not modelled either.
- JSON decoding, `Plan::from_str`, `ModelRequestUsage::from_headers` and `from_http_status` live in other crates. They are abstract parameters or pre-decoded fields.
- The request encoders (`into_anthropic`, `into_open_ai`, `into_google`) and the event mappers live in other crates. The mappers are the abstract stateful `Mapper` parameter. `open_ai::Model::from_id` failing is not modelled.
- Floating point: `retry_after` is an exact real. Nanosecond rounding inside `Duration`, and values within a nanosecond of 2^64 seconds, are not modelled.
- The `usage.amount as usize` cast is not modelled: usage amounts are naturals.
- `PROVIDER_NAME` and `MODEL_REQUESTS_RESOURCE_HEADER_VALUE` are defined in other crates. The constants `ProviderName` and `ModelRequestsResource` stand in for them, and no property depends on their values.
- Streams are finite sequences. Laziness, cancellation and the single-pass nature of the body are not modelled.
- Simple accessors with no decision logic are not modelled: `upstream_provider_id`/`_name`, `supports_*`, `telemetry_id`, `max_token_count`.
- Capabilities.MaxTokenCountInBurnMode: the `usize` to `u64` cast is treated as lossless, since `usize` is at most 64 bits wide on every supported target.

## Findings

| source | as written | input that shows it | evidently intended | confidence | as-written member | corrected member |
|---|---|---|---|---|---|---|
| crates/language_models/src/provider/cloud.rs:718 | `retry_after.map(Duration::from_secs_f64)` panics on a negative or too large number, so the infallible `From<ApiError>` conversion can panic | body `{"code":"upstream_http_429","message":"rate limited","retry_after":-1}` | the classifier is total; an unusable retry hint is dropped | not executed; the panic follows from the documented behaviour of `Duration::from_secs_f64`; dropping the hint is our choice of fix | Classifier.ClassifyAsWrittenPanicsOnNegativeRetry | Classifier.Classify |
| crates/language_models/src/provider/cloud.rs:1006 | the OpenAI and Google arms propagate the `ApiError` with `?`; only the Anthropic arm (955-958) downcasts and classifies it. `ApiError` is private to this file, so nothing later can classify it | an OpenAI or Google model whose relay answers 500 with body `{"code":"upstream_http_429","message":"rate limited"}` | every arm surfaces an `UpstreamProviderError` with status 429, as the Anthropic arm does | not executed; medium | Pipeline.ArmsDisagreeOnUpstreamErrors | Pipeline.SurfaceFailure |

=== FILE: capabilities.dfy ===
/** Small per-model selectors of `CloudLanguageModel`: the mode conversion
    for Anthropic requests, the thinking mode a request asks for, the tool
    schema format, the burn-mode token limit and the prompt-cache settings. */
module Capabilities {
  import opened Wrappers
  import opened Text
  import opened Models

  type U32 = n: int | 0 <= n < 0x1_0000_0000

  /** `ModelMode` of the settings. */
  datatype ModelMode = Default | Thinking(budgetTokens: Option<U32>)

  /** `anthropic::AnthropicModelMode`. */
  datatype AnthropicModelMode = AnthropicDefault | AnthropicThinking(budgetTokens: Option<U32>)

  /** `impl From<ModelMode> for AnthropicModelMode`. */
  function ToAnthropicMode(mode: ModelMode): (r: AnthropicModelMode)
    ensures r.AnthropicThinking? <==> mode.Thinking?
  {
    match mode
    case Default => AnthropicDefault
    case Thinking(budget) => AnthropicThinking(budget)
  }

  /** The reverse conversion. */
  function FromAnthropicMode(mode: AnthropicModelMode): ModelMode {
    match mode
    case AnthropicDefault => Default
    case AnthropicThinking(budget) => Thinking(budget)
  }

  /** The conversion loses nothing: it is a bijection that keeps the budget. */
  lemma AnthropicModeRoundTrip(mode: ModelMode, anthropic: AnthropicModelMode)
    ensures FromAnthropicMode(ToAnthropicMode(mode)) == mode
    ensures ToAnthropicMode(FromAnthropicMode(anthropic)) == anthropic
    ensures mode.Thinking? ==> ToAnthropicMode(mode).budgetTokens == mode.budgetTokens
  {
  }

  /** Reasoning budget of an Anthropic request to a thinking model. */
  const ThinkingBudgetTokens: U32 := 4096

  /** The mode of an Anthropic completion request: thinking, with the fixed
      budget, exactly when thinking is allowed and the model id is a thinking
      variant's. */
  function RequestThinkingMode(thinkingAllowed: bool, modelId: string): (r: AnthropicModelMode)
    ensures r.AnthropicThinking? <==> thinkingAllowed && EndsWith(modelId, ThinkingIdSuffix)
    ensures r.AnthropicThinking? ==> r.budgetTokens == Some(ThinkingBudgetTokens)
  {
    if thinkingAllowed && EndsWith(modelId, ThinkingIdSuffix) then
      AnthropicThinking(Some(ThinkingBudgetTokens))
    else AnthropicDefault
  }

  /** With thinking allowed, a request to the thinking variant `update_models`
      adds for a model asks for thinking, and a request to the base model
      (whose id does not itself end in the suffix) does not. */
  lemma ThinkingVariantRequestsThinking(m: LanguageModel)
    requires !EndsWith(m.id, ThinkingIdSuffix)
    ensures RequestThinkingMode(true, m.id) == AnthropicDefault
    ensures RequestThinkingMode(true, ThinkingVariant(m).id) == AnthropicThinking(Some(ThinkingBudgetTokens))
  {
  }

  /** `LanguageModelToolSchemaFormat`. */
  datatype ToolSchemaFormat = JsonSchema | JsonSchemaSubset

  /** `tool_input_format`: Google takes the JSON-schema subset, the others full JSON schema. */
  function ToolInputFormat(provider: ProviderKind): (r: ToolSchemaFormat)
    ensures r.JsonSchemaSubset? <==> provider.Google?
  {
    match provider
    case Anthropic => JsonSchema
    case OpenAi => JsonSchema
    case Google => JsonSchemaSubset
  }

  /** `max_token_count_in_burn_mode`: the max-mode token count, offered only
      for models that support max mode (the `usize` to `u64` cast is lossless). */
  function MaxTokenCountInBurnMode(m: LanguageModel): (r: Option<nat>)
    ensures r.Some? <==> m.supportsMaxMode && m.maxTokenCountInMaxMode.Some?
    ensures r.Some? ==> r.value == m.maxTokenCountInMaxMode.value
  {
    if m.supportsMaxMode then m.maxTokenCountInMaxMode else None
  }

  /** `LanguageModelCacheConfiguration`. */
  datatype CacheConfiguration = CacheConfiguration(minTotalToken: nat, shouldSpeculate: bool, maxCacheAnchors: nat)

  /** `cache_configuration`: only Anthropic models cache, with fixed settings. */
  function CacheConfigurationFor(provider: ProviderKind): (r: Option<CacheConfiguration>)
    ensures r.Some? <==> provider.Anthropic?
    ensures r.Some? ==> r.value.minTotalToken == 2048 && r.value.shouldSpeculate && r.value.maxCacheAnchors == 4
  {
    match provider
    case Anthropic => Some(CacheConfiguration(2048, true, 4))
    case OpenAi => None
    case Google => None
  }

  /** A thinking variant has the capabilities of its base model. */
  lemma ThinkingVariantSharesCapabilities(m: LanguageModel)
    ensures ToolInputFormat(ThinkingVariant(m).provider) == ToolInputFormat(m.provider)
    ensures MaxTokenCountInBurnMode(ThinkingVariant(m)) == MaxTokenCountInBurnMode(m)
    ensures CacheConfigurationFor(ThinkingVariant(m).provider) == CacheConfigurationFor(m.provider)
  {
  }
}

=== FILE: classifier.dfy ===
/** The upstream-error classifier: `impl From<ApiError> for LanguageModelCompletionError`
    and the `deserialize_optional_status_code` helper it relies on. */
module Classifier {
  import opened Wrappers
  import opened Text
  import opened Http
  import opened Errors

  /** `PROVIDER_NAME` (the cloud provider's display name, defined in the
      language_model crate). */
  const ProviderName: string := "Zed"

  /** Codes starting with this prefix report an error from an upstream provider. */
  const UpstreamPrefix: string := "upstream_http_"

  /** Codes ending with this suffix carry no status number of their own. */
  const GenericSuffix: string := "_error"

  /** `Duration::from_secs_f64` accepts finite seconds in [0, 2^64). */
  const MaxDurationSeconds: real := 18446744073709551616.0

  predicate RepresentableSeconds(x: real) {
    0.0 <= x < MaxDurationSeconds
  }

  /** `Duration::from_secs_f64`, which panics on a negative or too large value. */
  function FromSecsF64(x: real): (r: Outcome<Duration>)
    ensures r.Returns? <==> RepresentableSeconds(x)
    ensures r.Returns? ==> r.value.seconds == x
  {
    if RepresentableSeconds(x) then Returns(Duration(x)) else Panics
  }

  /** The error envelope as serde_json sees its fields: `code` and `message`
      are required strings, `upstream_status` is the JSON integer if present
      and not null, `retry_after` the JSON number if present and not null.
      A body that is not JSON, or lacks a required field, is not an envelope. */
  datatype RawEnvelope = RawEnvelope(
    code: string,
    message: string,
    upstreamStatus: Option<int>,
    retryAfter: Option<real>)

  /** `CloudApiError` after deserialization. */
  datatype CloudApiError = CloudApiError(
    code: string,
    message: string,
    upstreamStatus: Option<StatusCode>,
    retryAfter: Option<real>)

  /** `deserialize_optional_status_code`: the field must deserialize as
      `Option<u16>` (otherwise deserialization of the whole envelope fails,
      `Err`); a number that is not a valid status code is dropped to `None`. */
  function DeserializeOptionalStatusCode(raw: Option<int>): (r: Result<Option<StatusCode>, ()>)
    ensures r.Err? <==> raw.Some? && !(0 <= raw.value <= U16Max)
    ensures r.Ok? && r.value.Some? <==> raw.Some? && ValidStatus(raw.value)
    ensures r.Ok? && r.value.Some? ==> r.value.value == raw.value
  {
    match raw
    case None => Ok(None)
    case Some(n) =>
      if 0 <= n <= U16Max then Ok(StatusFromU16(n)) else Err(())
  }

  /** `serde_json::from_str::<CloudApiError>`, given what the JSON layer decoded. */
  function ParseCloudApiError(decoded: Option<RawEnvelope>): (r: Option<CloudApiError>)
    ensures r.Some? <==> decoded.Some? && DeserializeOptionalStatusCode(decoded.value.upstreamStatus).Ok?
    ensures r.Some? ==>
      && r.value.code == decoded.value.code
      && r.value.message == decoded.value.message
      && r.value.upstreamStatus == DeserializeOptionalStatusCode(decoded.value.upstreamStatus).value
      && r.value.retryAfter == decoded.value.retryAfter
  {
    match decoded
    case None => None
    case Some(env) =>
      match DeserializeOptionalStatusCode(env.upstreamStatus)
      case Err(_) => None
      case Ok(status) => Some(CloudApiError(env.code, env.message, status, env.retryAfter))
  }

  /** The failed response handed to the classifier (`ApiError`). */
  datatype ApiError = ApiError(status: StatusCode, body: string, headers: Headers)

  /** The status number embedded in a code such as `upstream_http_429`:
      strip the prefix, parse as `u16`, keep it if it is a valid status code. */
  function CodeSuffixStatus(code: string): (r: Option<StatusCode>)
    ensures r.Some? <==>
      && StartsWith(code, UpstreamPrefix)
      && ParseU16(code[|UpstreamPrefix|..]).Some?
      && ValidStatus(ParseU16(code[|UpstreamPrefix|..]).value)
    ensures r.Some? ==> ParseU16(code[|UpstreamPrefix|..]) == Some(r.value as nat)
  {
    match StripPrefix(code, UpstreamPrefix)
    case None => None
    case Some(rest) =>
      match ParseU16(rest)
      case None => None
      case Some(n) => StatusFromU16(n)
  }

  /** The status an upstream error reports, by priority: the explicit
      `upstream_status`; the outer status for codes ending in `_error`; the
      number in the code; the outer status. */
  function ResolveStatus(cloud: CloudApiError, outer: StatusCode): (r: StatusCode)
    ensures r == outer || Some(r) == cloud.upstreamStatus || Some(r) == CodeSuffixStatus(cloud.code)
    ensures cloud.upstreamStatus.Some? ==> r == cloud.upstreamStatus.value
    ensures cloud.upstreamStatus.None? && EndsWith(cloud.code, GenericSuffix) ==> r == outer
  {
    if cloud.upstreamStatus.Some? then cloud.upstreamStatus.value
    else if EndsWith(cloud.code, GenericSuffix) then outer
    else match CodeSuffixStatus(cloud.code)
      case Some(s) => s
      case None => outer
  }

  /** The envelope, when the body is one and its code names an upstream error. */
  function UpstreamEnvelope(err: ApiError, decode: string -> Option<RawEnvelope>): (r: Option<CloudApiError>)
    ensures r.Some? ==> StartsWith(r.value.code, UpstreamPrefix)
    ensures var parsed := ParseCloudApiError(decode(err.body));
      parsed.Some? && StartsWith(parsed.value.code, UpstreamPrefix) ==> r == parsed
    ensures r.Some? ==> r == ParseCloudApiError(decode(err.body))
  {
    match ParseCloudApiError(decode(err.body))
    case Some(cloud) => if StartsWith(cloud.code, UpstreamPrefix) then Some(cloud) else None
    case None => None
  }

  /** The generic status-keyed error the classifier falls back to. */
  function Fallback(err: ApiError): CompletionError {
    FromHttpStatus(ProviderName, err.status, err.body, None)
  }

  /** `From<ApiError>` as written: the retry hint goes through
      `Duration::from_secs_f64`, which panics on values it cannot represent. */
  function ClassifyAsWritten(err: ApiError, decode: string -> Option<RawEnvelope>): (r: Outcome<CompletionError>)
    ensures r.Panics? <==>
      var env := UpstreamEnvelope(err, decode);
      env.Some? && env.value.retryAfter.Some? && !RepresentableSeconds(env.value.retryAfter.value)
    ensures r.Returns? ==> (r.value.UpstreamProviderError? <==> UpstreamEnvelope(err, decode).Some?)
    ensures r.Returns? && !r.value.UpstreamProviderError? ==> r.value == Fallback(err)
  {
    match UpstreamEnvelope(err, decode)
    case None => Returns(Fallback(err))
    case Some(cloud) =>
      var status := ResolveStatus(cloud, err.status);
      match cloud.retryAfter
      case None => Returns(UpstreamProviderError(cloud.message, status, None))
      case Some(secs) =>
        match FromSecsF64(secs)
        case Panics => Panics
        case Returns(d) => Returns(UpstreamProviderError(cloud.message, status, Some(d)))
  }

  /** The retry hint with unrepresentable values dropped instead of panicking. */
  function RetryHint(retryAfter: Option<real>): (r: Option<Duration>)
    ensures r.Some? <==> retryAfter.Some? && RepresentableSeconds(retryAfter.value)
    ensures r.Some? ==> r.value.seconds == retryAfter.value
  {
    match retryAfter
    case Some(secs) => if RepresentableSeconds(secs) then Some(Duration(secs)) else None
    case None => None
  }

  /** The classifier: exactly one error kind for every failed response, never a panic.
      `decode` is what serde_json makes of a body. */
  function Classify(err: ApiError, decode: string -> Option<RawEnvelope>): (r: CompletionError)
    ensures r.UpstreamProviderError? <==> UpstreamEnvelope(err, decode).Some?
    ensures r.UpstreamProviderError? ==>
      var cloud := UpstreamEnvelope(err, decode).value;
      && r.message == cloud.message
      && (r.retryAfter.Some? <==> cloud.retryAfter.Some? && RepresentableSeconds(cloud.retryAfter.value))
      && (r.retryAfter.Some? ==> r.retryAfter.value.seconds == cloud.retryAfter.value)
    ensures !r.UpstreamProviderError? ==> r == FromHttpStatus(ProviderName, err.status, err.body, None)
  {
    match UpstreamEnvelope(err, decode)
    case None => Fallback(err)
    case Some(cloud) =>
      UpstreamProviderError(cloud.message, ResolveStatus(cloud, err.status), RetryHint(cloud.retryAfter))
  }

  /** The corrected classifier differs from the code as written only where
      the latter panics. */
  lemma ClassifyAgreesUnlessPanic(err: ApiError, decode: string -> Option<RawEnvelope>)
    ensures ClassifyAsWritten(err, decode).Returns? ==>
      ClassifyAsWritten(err, decode).value == Classify(err, decode)
    ensures ClassifyAsWritten(err, decode).Panics? <==>
      (UpstreamEnvelope(err, decode).Some?
       && UpstreamEnvelope(err, decode).value.retryAfter.Some?
       && !RepresentableSeconds(UpstreamEnvelope(err, decode).value.retryAfter.value))
  {
  }

  /** An upstream error whose retry hint is negative makes the classifier as
      written panic. */
  lemma ClassifyAsWrittenPanicsOnNegativeRetry(decode: string -> Option<RawEnvelope>, body: string)
    requires decode(body) == Some(RawEnvelope("upstream_http_429", "rate limited", None, Some(-1.0)))
    ensures ClassifyAsWritten(ApiError(500, body, NoHeaders), decode).Panics?
  {
  }

  const NoHeaders: Headers := Headers(false, Absent, None, false, false, None)

  /** An explicit, valid `upstream_status` decides the status whatever the
      outer status was. */
  lemma ExplicitUpstreamStatusWins(err: ApiError, outer: StatusCode, decode: string -> Option<RawEnvelope>)
    requires UpstreamEnvelope(err, decode).Some?
    requires decode(err.body).value.upstreamStatus.Some?
    requires ValidStatus(decode(err.body).value.upstreamStatus.value)
    ensures Classify(err, decode).status == decode(err.body).value.upstreamStatus.value
    ensures Classify(err.(status := outer), decode) == Classify(err, decode)
  {
  }

  /** Without `upstream_status`, a code ending in `_error` reports the outer
      status, even when a number precedes the suffix. */
  lemma GenericCodeUsesOuterStatus(err: ApiError, decode: string -> Option<RawEnvelope>)
    requires UpstreamEnvelope(err, decode).Some?
    requires UpstreamEnvelope(err, decode).value.upstreamStatus.None?
    requires EndsWith(UpstreamEnvelope(err, decode).value.code, GenericSuffix)
    ensures Classify(err, decode).status == err.status
  {
  }

  /** When `upstream_status` deserializes to nothing (absent, or an in-range
      number that is not a status code), `upstream_http_<n>` reports status n
      for every valid status code n, independently of the outer status. */
  lemma NumericCodeGivesItsStatus(err: ApiError, n: nat, decode: string -> Option<RawEnvelope>)
    requires ValidStatus(n)
    requires decode(err.body).Some?
    requires decode(err.body).value.code == UpstreamPrefix + DecimalString(n)
    requires DeserializeOptionalStatusCode(decode(err.body).value.upstreamStatus) == Ok(None)
    ensures Classify(err, decode).UpstreamProviderError?
    ensures Classify(err, decode).status == n
  {
    var code := UpstreamPrefix + DecimalString(n);
    assert code[..|UpstreamPrefix|] == UpstreamPrefix;
    assert StripPrefix(code, UpstreamPrefix) == Some(DecimalString(n));
    assert code[|code| - 1] == DecimalString(n)[|DecimalString(n)| - 1];
    DigitEndDoesNotEndWith(code, GenericSuffix);
    ParseU16OfDecimal(n);
  }

  /** When `upstream_status` deserializes to nothing (absent, or an in-range
      number that is not a status code), any code the `u16` parse turns into
      a valid status reports that status (unless it ends in `_error`):
      leading zeros and a '+' sign included. */
  lemma SuffixStatusIsReported(err: ApiError, s: StatusCode, decode: string -> Option<RawEnvelope>)
    requires decode(err.body).Some?
    requires DeserializeOptionalStatusCode(decode(err.body).value.upstreamStatus) == Ok(None)
    requires !EndsWith(decode(err.body).value.code, GenericSuffix)
    requires CodeSuffixStatus(decode(err.body).value.code) == Some(s)
    ensures Classify(err, decode).UpstreamProviderError?
    ensures Classify(err, decode).status == s
  {
  }

  /** `{"code":"upstream_http_429","upstream_status":1000}`: 1000 is a `u16`
      but not a status code, so it is dropped and the code's 429 is reported. */
  lemma NonStatusUpstreamStatusDefersToCode(err: ApiError, decode: string -> Option<RawEnvelope>)
    requires decode(err.body) == Some(RawEnvelope("upstream_http_429", "rate limited", Some(1000), None))
    ensures Classify(err, decode) == UpstreamProviderError("rate limited", 429, None)
  {
    assert DecimalString(429) == "429";
    NumericCodeGivesItsStatus(err, 429, decode);
  }

  /** The suffix of `upstream_http_0429` and of `upstream_http_+429` parses as 429. */
  lemma PaddedAndSignedSuffixes()
    ensures CodeSuffixStatus("upstream_http_0429") == Some(429)
    ensures CodeSuffixStatus("upstream_http_+429") == Some(429)
  {
    assert DecimalString(429) == "429";
    SignAndLeadingZerosAccepted("0", 429);
    SignAndLeadingZerosAccepted("", 429);
    assert "0" + "429" == "0429";
    assert "+" + "" + "429" == "+429";
    assert StripPrefix("upstream_http_0429", UpstreamPrefix) == Some("0429");
    assert StripPrefix("upstream_http_+429", UpstreamPrefix) == Some("+429");
  }

  /** `upstream_http_0429` and `upstream_http_+429` both report 429. */
  lemma PaddedAndSignedCodesReportTheirStatus(err: ApiError, decode: string -> Option<RawEnvelope>)
    requires decode(err.body).Some?
    requires decode(err.body).value.upstreamStatus.None?
    requires decode(err.body).value.code == "upstream_http_0429"
          || decode(err.body).value.code == "upstream_http_+429"
    ensures Classify(err, decode).status == 429
  {
    var code := decode(err.body).value.code;
    PaddedAndSignedSuffixes();
    DigitEndDoesNotEndWith(code, GenericSuffix);
    SuffixStatusIsReported(err, 429, decode);
  }

  /** Without `upstream_status`, a code whose remainder is not a valid status
      number (and does not end in `_error`) reports the outer status. */
  lemma UnparsableCodeUsesOuterStatus(err: ApiError, decode: string -> Option<RawEnvelope>)
    requires UpstreamEnvelope(err, decode).Some?
    requires UpstreamEnvelope(err, decode).value.upstreamStatus.None?
    requires CodeSuffixStatus(UpstreamEnvelope(err, decode).value.code).None?
    ensures Classify(err, decode).status == err.status
  {
  }

  /** A body that is not an envelope falls back to the status-keyed error
      with the body text as message and no retry hint. */
  lemma UnparsableBodyFallsBack(err: ApiError, decode: string -> Option<RawEnvelope>)
    requires decode(err.body).None?
    ensures Classify(err, decode) == FromHttpStatus(ProviderName, err.status, err.body, None)
  {
  }

  /** An out-of-range `upstream_status` makes the whole envelope fail to
      deserialize, so the response falls back as if the body were not JSON. */
  lemma OversizedUpstreamStatusFallsBack(err: ApiError, decode: string -> Option<RawEnvelope>)
    requires decode(err.body).Some?
    requires decode(err.body).value.upstreamStatus.Some?
    requires decode(err.body).value.upstreamStatus.value > U16Max
    ensures Classify(err, decode) == Fallback(err)
  {
  }

  /** Body `{"code":"upstream_http_429","message":..,"retry_after":30.5}` with
      outer status 500 gives status 429 and a 30.5 second hint. */
  lemma Upstream429Example(decode: string -> Option<RawEnvelope>, body: string)
    requires decode(body) == Some(RawEnvelope("upstream_http_429", "Upstream Anthropic rate limit exceeded.", None, Some(30.5)))
    ensures Classify(ApiError(500, body, NoHeaders), decode)
      == UpstreamProviderError("Upstream Anthropic rate limit exceeded.", 429, Some(Duration(30.5)))
  {
    assert DecimalString(429) == "429";
    NumericCodeGivesItsStatus(ApiError(500, body, NoHeaders), 429, decode);
  }
}

=== FILE: errors.dfy ===
/** The error vocabulary shared by the classifier, the decoder and the event
    mapping: `LanguageModelCompletionError` as far as this client produces it,
    and the failures of the line decoder. */
module Errors {
  import opened Wrappers
  import opened Http

  /** `std::time::Duration` in seconds. */
  datatype Duration = Duration(seconds: real)

  /** Why the line decoder stopped early: a read failed, or a line did not
      parse as the expected JSON value. */
  datatype DecodeError = LineUnreadable | LineUnparsable(line: string)

  /** The caller-facing error kinds this client creates.
      `FromHttpStatus` stands for whatever
      `LanguageModelCompletionError::from_http_status(provider, status, message, retry_after)`
      returns; that function lives in another crate and is kept uninterpreted
      by recording its arguments. `Decode` stands for the conversion of a
      decoder failure (an `anyhow::Error`) into a completion error. */
  datatype CompletionError =
    | UpstreamProviderError(message: string, status: StatusCode, retryAfter: Option<Duration>)
    | FromHttpStatus(provider: string, status: StatusCode, message: string, retryAfter: Option<Duration>)
    | Decode(cause: DecodeError)

  /** A Rust computation that either returns a value or panics. */
  datatype Outcome<+T> = Returns(value: T) | Panics
}

=== FILE: events.dfy ===
/** The success path: `response_lines` decodes the body line by line, the two
    synthetic trailers are chained after it, and `map_cloud_completion_events`
    turns the result into the caller-facing event stream. Streams are finite
    sequences here; laziness is not modelled. */
module Events {
  import opened Wrappers
  import opened Http
  import opened Errors
  import opened Orchestrator

  /** `CompletionRequestStatus`: the two statuses this client synthesises, and
      any other status the relay sends in-band. */
  datatype RequestStatus =
    | UsageUpdated(amount: nat, limit: UsageLimit)
    | ToolUseLimitReached
    | Relayed(detail: string)

  /** `CompletionEvent<T>`: a status envelope or a provider-native event. */
  datatype CompletionEvent<T> = Status(status: RequestStatus) | Event(event: T)

  /** `LanguageModelCompletionEvent`: a status update, or one of the content
      events the provider mappers produce (kept abstract as `C`). */
  datatype LanguageModelEvent<C> = StatusUpdate(status: RequestStatus) | Content(content: C)

  /** The JSON decoders for one line (serde_json, abstract): a whole line as a
      `CompletionEvent<T>`, or a whole line as a bare `T`. */
  datatype LineParsers<T> = LineParsers(
    wrapped: string -> Option<CompletionEvent<T>>,
    plain: string -> Option<T>)

  /** One decoded line: in status mode the line is a `CompletionEvent<T>`,
      otherwise a bare `T` wrapped as `Event`. */
  function DecodeLine<T>(line: string, includesStatusMessages: bool, parsers: LineParsers<T>)
    : (r: Result<CompletionEvent<T>, DecodeError>)
    ensures r.Err? ==> r.error == LineUnparsable(line)
    ensures includesStatusMessages ==>
      (r.Ok? <==> parsers.wrapped(line).Some?) && (r.Ok? ==> r.value == parsers.wrapped(line).value)
    ensures !includesStatusMessages ==>
      (r.Ok? <==> parsers.plain(line).Some?) && (r.Ok? ==> r.value == Event(parsers.plain(line).value))
  {
    if includesStatusMessages then
      match parsers.wrapped(line)
      case Some(ev) => Ok(ev)
      case None => Err(LineUnparsable(line))
    else
      match parsers.plain(line)
      case Some(t) => Ok(Event(t))
      case None => Err(LineUnparsable(line))
  }

  /** What one non-final read contributes to the decoded stream. */
  function DecodeRead<T>(read: LineRead, includesStatusMessages: bool, parsers: LineParsers<T>)
    : Result<CompletionEvent<T>, DecodeError>
  {
    match read
    case ReadFailed => Err(LineUnreadable)
    case Line(t) => DecodeLine(t, includesStatusMessages, parsers)
  }

  predicate IsEndOfStream(read: LineRead) {
    read == Line("")
  }

  /** `response_lines`: decode reads in order until end of stream (a zero-byte
      read or the end of the body) or until the first failure, which is the
      last element. */
  function ResponseLines<T>(body: Body, includesStatusMessages: bool, parsers: LineParsers<T>)
    : (r: seq<Result<CompletionEvent<T>, DecodeError>>)
    ensures |r| <= |body|
    ensures forall i :: 0 <= i < |r| ==>
      !IsEndOfStream(body[i]) && r[i] == DecodeRead(body[i], includesStatusMessages, parsers)
    ensures forall i :: 0 <= i < |r| - 1 ==> r[i].Ok?
    ensures |r| == |body| || (|r| > 0 && r[|r| - 1].Err?) || IsEndOfStream(body[|r|])
    decreases |body|
  {
    if |body| == 0 || IsEndOfStream(body[0]) then []
    else
      var first := DecodeRead(body[0], includesStatusMessages, parsers);
      if first.Err? then [first]
      else [first] + ResponseLines(body[1..], includesStatusMessages, parsers)
  }

  /** `usage_updated_event`: one usage status when usage was captured. */
  function UsageUpdatedEvent<T>(usage: Option<Usage>): (r: seq<Result<CompletionEvent<T>, DecodeError>>)
    ensures |r| == (if usage.Some? then 1 else 0)
    ensures usage.Some? ==> r[0] == Ok(Status(UsageUpdated(usage.value.amount, usage.value.limit)))
  {
    match usage
    case Some(u) => [Ok(Status(UsageUpdated(u.amount, u.limit)))]
    case None => []
  }

  /** `tool_use_limit_reached_event`: one tool-limit status when the flag is set. */
  function ToolUseLimitReachedEvent<T>(reached: bool): (r: seq<Result<CompletionEvent<T>, DecodeError>>)
    ensures |r| == (if reached then 1 else 0)
    ensures reached ==> r[0] == Ok(Status(ToolUseLimitReached))
  {
    if reached then [Ok(Status(ToolUseLimitReached))] else []
  }

  /** The chained stream the provider arms build from a successful call:
      decoded lines, then the usage trailer, then the tool-limit trailer. */
  function DecodedStream<T>(c: Completion, parsers: LineParsers<T>)
    : (r: seq<Result<CompletionEvent<T>, DecodeError>>)
    ensures var lines := ResponseLines(c.response.body, c.includesStatusMessages, parsers);
      && |r| == |lines| + (if c.usage.Some? then 1 else 0) + (if c.toolUseLimitReached then 1 else 0)
      && r[..|lines|] == lines
      && forall i :: |lines| <= i < |r| ==> r[i].Ok? && r[i].value.Status?
  {
    ResponseLines(c.response.body, c.includesStatusMessages, parsers)
      + UsageUpdatedEvent(c.usage)
      + ToolUseLimitReachedEvent(c.toolUseLimitReached)
  }

  /** Every read up to `n` is a non-empty line that decodes. */
  predicate WellFormedPrefix<T>(body: Body, n: nat, includesStatusMessages: bool, parsers: LineParsers<T>)
    requires n <= |body|
  {
    forall i :: 0 <= i < n ==>
      body[i].Line? && !IsEndOfStream(body[i])
      && DecodeRead(body[i], includesStatusMessages, parsers).Ok?
  }

  /** The shape of the chained stream: the wire events in order, then exactly
      one usage status iff usage is present, then exactly one tool-limit
      status iff the flag is set. With N well-formed lines before end of
      stream, the wire part is exactly those N decoded lines. */
  lemma DecodedStreamShape<T>(c: Completion, parsers: LineParsers<T>, n: nat)
    requires n <= |c.response.body|
    requires WellFormedPrefix(c.response.body, n, c.includesStatusMessages, parsers)
    requires n == |c.response.body| || IsEndOfStream(c.response.body[n])
    ensures var s := DecodedStream(c, parsers);
      var u := if c.usage.Some? then 1 else 0;
      var t := if c.toolUseLimitReached then 1 else 0;
      && |s| == n + u + t
      && (forall i :: 0 <= i < n ==> s[i] == DecodeRead(c.response.body[i], c.includesStatusMessages, parsers))
      && (c.usage.Some? ==> s[n] == Ok(Status(UsageUpdated(c.usage.value.amount, c.usage.value.limit))))
      && (c.toolUseLimitReached ==> s[n + u] == Ok(Status(ToolUseLimitReached)))
  {
    WellFormedLinesAllDecoded(c.response.body, n, c.includesStatusMessages, parsers);
  }

  /** N well-formed lines followed by end of stream decode to exactly N events. */
  lemma WellFormedLinesAllDecoded<T>(body: Body, n: nat, includesStatusMessages: bool, parsers: LineParsers<T>)
    requires n <= |body|
    requires WellFormedPrefix(body, n, includesStatusMessages, parsers)
    requires n == |body| || IsEndOfStream(body[n])
    ensures |ResponseLines(body, includesStatusMessages, parsers)| == n
  {
  }

  /** A stateful per-provider mapper (`AnthropicEventMapper` and friends):
      from its state and one provider event, its next state and the events
      it emits. */
  type Mapper<!S, -T, C> = (S, T) -> (S, seq<Result<LanguageModelEvent<C>, CompletionError>>)

  /** What one decoded item becomes, and the mapper state after it. */
  function MapItem<S, T, C>(item: Result<CompletionEvent<T>, DecodeError>, state: S, mapper: Mapper<S, T, C>)
    : (r: (S, seq<Result<LanguageModelEvent<C>, CompletionError>>))
    ensures item.Err? ==> r == (state, [Err(Decode(item.error))])
    ensures item.Ok? && item.value.Status? ==> r == (state, [Ok(StatusUpdate(item.value.status))])
    ensures item.Ok? && item.value.Event? ==> r == mapper(state, item.value.event)
  {
    match item
    case Err(e) => (state, [Err(Decode(e))])
    case Ok(Status(s)) => (state, [Ok(StatusUpdate(s))])
    case Ok(Event(t)) => mapper(state, t)
  }

  /** `map_cloud_completion_events`: an order-preserving flat-map threading
      the mapper's state. */
  function MapCloudCompletionEvents<S, T, C>(stream: seq<Result<CompletionEvent<T>, DecodeError>>,
                                             state: S, mapper: Mapper<S, T, C>)
    : (r: seq<Result<LanguageModelEvent<C>, CompletionError>>)
    ensures |r| >= |stream| - |Payloads(stream)|
    decreases |stream|
  {
    if |stream| == 0 then []
    else
      var (next, out) := MapItem(stream[0], state, mapper);
      out + MapCloudCompletionEvents(stream[1..], next, mapper)
  }

  /** The mapper state after the whole stream. */
  function FinalState<S, T, C>(stream: seq<Result<CompletionEvent<T>, DecodeError>>,
                               state: S, mapper: Mapper<S, T, C>): S
    decreases |stream|
  {
    if |stream| == 0 then state
    else FinalState(stream[1..], MapItem(stream[0], state, mapper).0, mapper)
  }

  /** The provider events of a stream, in order. */
  function Payloads<T>(stream: seq<Result<CompletionEvent<T>, DecodeError>>): seq<T>
    decreases |stream|
  {
    if |stream| == 0 then []
    else if stream[0].Ok? && stream[0].value.Event? then [stream[0].value.event] + Payloads(stream[1..])
    else Payloads(stream[1..])
  }

  /** Feeding events to the mapper one at a time. */
  function RunMapper<S, T, C>(events: seq<T>, state: S, mapper: Mapper<S, T, C>): S
    decreases |events|
  {
    if |events| == 0 then state else RunMapper(events[1..], mapper(state, events[0]).0, mapper)
  }

  /** The mapping distributes over concatenation: the output for `a + b` is
      the output for `a` followed by the output for `b`, continuing from the
      state `a` left behind. With `MapItem` this says every item is expanded
      in place and nothing is reordered or dropped. */
  lemma {:induction false} MapDistributes<S, T, C>(a: seq<Result<CompletionEvent<T>, DecodeError>>,
                                                  b: seq<Result<CompletionEvent<T>, DecodeError>>,
                                                  state: S, mapper: Mapper<S, T, C>)
    ensures MapCloudCompletionEvents(a + b, state, mapper)
      == MapCloudCompletionEvents(a, state, mapper)
         + MapCloudCompletionEvents(b, FinalState(a, state, mapper), mapper)
    ensures FinalState(a + b, state, mapper) == FinalState(b, FinalState(a, state, mapper), mapper)
    decreases |a|
  {
    if |a| > 0 {
      assert (a + b)[0] == a[0];
      assert (a + b)[1..] == a[1..] + b;
      MapDistributes(a[1..], b, MapItem(a[0], state, mapper).0, mapper);
    } else {
      assert a + b == b;
    }
  }

  /** A single item maps to `MapItem`'s output. */
  lemma MapSingle<S, T, C>(item: Result<CompletionEvent<T>, DecodeError>, state: S, mapper: Mapper<S, T, C>)
    ensures MapCloudCompletionEvents([item], state, mapper) == MapItem(item, state, mapper).1
    ensures FinalState([item], state, mapper) == MapItem(item, state, mapper).0
  {
  }

  /** The mapper sees exactly the provider events of the stream, in order:
      status items and failures never reach it. */
  lemma {:induction false} MapperSeesPayloads<S, T, C>(stream: seq<Result<CompletionEvent<T>, DecodeError>>,
                                                      state: S, mapper: Mapper<S, T, C>)
    ensures FinalState(stream, state, mapper) == RunMapper(Payloads(stream), state, mapper)
    decreases |stream|
  {
    if |stream| > 0 {
      MapperSeesPayloads(stream[1..], MapItem(stream[0], state, mapper).0, mapper);
      if stream[0].Ok? && stream[0].value.Event? {
        var p := Payloads(stream);
        assert p[0] == stream[0].value.event;
        assert p[1..] == Payloads(stream[1..]);
      }
    }
  }

  /** Without provider events the mapping is one-for-one: each failure becomes
      one error and each status one status update, at the same position. */
  lemma {:induction false} OneForOneWithoutEvents<S, T, C>(stream: seq<Result<CompletionEvent<T>, DecodeError>>,
                                                          state: S, mapper: Mapper<S, T, C>)
    requires forall i :: 0 <= i < |stream| ==> !(stream[i].Ok? && stream[i].value.Event?)
    ensures var out := MapCloudCompletionEvents(stream, state, mapper);
      && |out| == |stream|
      && forall i :: 0 <= i < |stream| ==>
           (stream[i].Err? ==> out[i] == Err(Decode(stream[i].error)))
           && (stream[i].Ok? ==> out[i] == Ok(StatusUpdate(stream[i].value.status)))
    decreases |stream|
  {
    if |stream| > 0 {
      OneForOneWithoutEvents(stream[1..], state, mapper);
      var out := MapCloudCompletionEvents(stream, state, mapper);
      var rest := MapCloudCompletionEvents(stream[1..], state, mapper);
      assert out == [out[0]] + rest;
      forall i | 0 < i < |stream|
        ensures (stream[i].Err? ==> out[i] == Err(Decode(stream[i].error)))
          && (stream[i].Ok? ==> out[i] == Ok(StatusUpdate(stream[i].value.status)))
      {
        assert stream[1..][i - 1] == stream[i];
        assert out[i] == rest[i - 1];
      }
    }
  }
}

=== FILE: http.dfy ===
/** The parts of an HTTP exchange the cloud completion client looks at:
    the status code, the handful of response headers it reads, and the body
    as the sequence of results `read_line` delivers. */
module Http {
  import opened Wrappers

  /** `http::StatusCode`: `StatusCode::from_u16` accepts exactly 100..=999. */
  predicate ValidStatus(n: int) {
    100 <= n <= 999
  }

  type StatusCode = n: int | ValidStatus(n) witness 200

  /** `StatusCode::from_u16(n).ok()`. */
  function StatusFromU16(n: nat): (r: Option<StatusCode>)
    ensures r.Some? <==> ValidStatus(n)
    ensures r.Some? ==> r.value == n
  {
    if ValidStatus(n) then Some(n) else None
  }

  /** `StatusCode::is_success`: the 2xx range. */
  predicate IsSuccess(s: StatusCode) {
    200 <= s <= 299
  }

  const PaymentRequired: StatusCode := 402
  const Forbidden: StatusCode := 403

  /** A header as seen through `headers().get(name)` followed by `to_str().ok()`:
      missing, present but not visible ASCII, or present as text. */
  datatype HeaderValue = Absent | Unreadable | Text(text: string) {
    predicate IsPresent() { !Absent? }
  }

  /** Plans the relay reports in the current-plan header (`cloud_llm_client::Plan`). */
  datatype CloudPlan = ZedFree | ZedPro | ZedProTrial

  /** Usage limit as carried by `ModelRequestUsage`. */
  datatype UsageLimit = Limited(count: nat) | Unlimited

  /** `ModelRequestUsage`: requests used so far and the plan's limit. */
  datatype Usage = Usage(amount: nat, limit: UsageLimit)

  /** The response headers the client consults. Parsing that happens in
      collaborators is already applied: `plan` is the current-plan header read
      as text and put through `Plan::from_str` (None when missing, unreadable or
      unknown), and `usage` is `ModelRequestUsage::from_headers(..).ok()`. */
  datatype Headers = Headers(
    expiredToken: bool,
    limitResource: HeaderValue,
    plan: Option<CloudPlan>,
    serverSupportsStatusMessages: bool,
    toolUseLimitReached: bool,
    usage: Option<Usage>)

  /** One call of `read_line` on the body: the bytes of one line (with its
      terminator; an empty string is the zero-byte read that signals end of
      stream), or an I/O failure (including text that is not UTF-8). */
  datatype LineRead = Line(text: string) | ReadFailed

  /** A response body: the results successive reads would give. Running off
      the end of the sequence is end of stream, like a zero-byte read. */
  type Body = seq<LineRead>

  datatype Response = Response(status: StatusCode, headers: Headers, body: Body)

  predicate AllLines(rs: Body) {
    forall i :: 0 <= i < |rs| ==> rs[i].Line?
  }

  /** The text of a run of successful reads, in order. */
  function Join(rs: Body): string
    requires AllLines(rs)
  {
    if |rs| == 0 then ""
    else Join(rs[..|rs| - 1]) + rs[|rs| - 1].text
  }

  lemma {:induction false} JoinCons(first: LineRead, rest: Body)
    requires first.Line? && AllLines(rest)
    ensures AllLines([first] + rest) && Join([first] + rest) == first.text + Join(rest)
    decreases |rest|
  {
    if |rest| > 0 {
      JoinCons(first, rest[..|rest| - 1]);
      assert ([first] + rest)[..|rest|] == [first] + rest[..|rest| - 1];
    }
  }

  /** `read_to_string` over the body: the text of every read up to end of
      stream, or nothing if a read fails first. */
  function ReadToString(body: Body): (r: Option<string>)
    ensures r.Some? <==> AllLines(body[..EndOfText(body)])
    ensures r.Some? ==> r.value == Join(body[..EndOfText(body)])
    decreases |body|
  {
    if |body| == 0 then Some("")
    else match body[0]
      case ReadFailed => None
      case Line(t) =>
        if t == "" then
          assert body[..1] == [body[0]] + [];
          JoinCons(body[0], []);
          Some("")
        else
          var tail := body[1..][..EndOfText(body[1..])];
          assert body[..EndOfText(body)] == [body[0]] + tail;
          match ReadToString(body[1..])
          case None => None
          case Some(rest) =>
            JoinCons(body[0], tail);
            Some(t + rest)
  }

  /** Reading a body made of non-empty lines and then either the end of the
      body or a zero-byte read gives back exactly the lines' text. */
  lemma ReadToStringOfLines(lines: Body)
    requires AllLines(lines) && forall i :: 0 <= i < |lines| ==> lines[i].text != ""
    ensures ReadToString(lines) == Some(Join(lines))
    ensures ReadToString(lines + [Line("")]) == Some(Join(lines))
  {
    EndOfTextOfLines(lines, []);
    assert lines + [] == lines;
    assert lines[..EndOfText(lines)] == lines;
    var ended := lines + [Line("")];
    EndOfTextOfLines(lines, [Line("")]);
    assert ended[..EndOfText(ended)] == ended;
    JoinSnoc(lines);
  }

  lemma {:induction false} EndOfTextOfLines(lines: Body, after: Body)
    requires AllLines(lines) && forall i :: 0 <= i < |lines| ==> lines[i].text != ""
    requires after == [] || after == [Line("")]
    ensures EndOfText(lines + after) == |lines| + |after|
    decreases |lines|
  {
    if |lines| > 0 {
      EndOfTextOfLines(lines[1..], after);
      assert (lines + after)[1..] == lines[1..] + after;
    }
  }

  lemma JoinSnoc(lines: Body)
    requires AllLines(lines)
    ensures AllLines(lines + [Line("")]) && Join(lines + [Line("")]) == Join(lines)
  {
    assert (lines + [Line("")])[..|lines|] == lines;
  }

  /** Number of reads up to and including the first one that is not a
      non-empty line (so the reads that make up the body text, plus the one
      that ends it, if any). */
  function EndOfText(body: Body): (n: nat)
    ensures n <= |body|
    decreases |body|
  {
    if |body| == 0 then 0
    else if body[0].ReadFailed? || body[0].text == "" then 1
    else 1 + EndOfText(body[1..])
  }
}

=== FILE: models.dfy ===
/** `State::update_models`: the client-side model list built from the
    relay's list-models response. */
module Models {
  import opened Wrappers
  import opened Text

  /** `cloud_llm_client::LanguageModelProvider`. */
  datatype ProviderKind = Anthropic | OpenAi | Google

  /** `cloud_llm_client::LanguageModel`, with the fields this client reads. */
  datatype LanguageModel = LanguageModel(
    id: string,
    displayName: string,
    provider: ProviderKind,
    supportsThinking: bool,
    supportsMaxMode: bool,
    supportsTools: bool,
    supportsImages: bool,
    maxTokenCount: nat,
    maxTokenCountInMaxMode: Option<nat>,
    maxOutputTokens: nat)

  /** `ListModelsResponse`. */
  datatype ListModelsResponse = ListModelsResponse(
    models: seq<LanguageModel>,
    defaultModel: string,
    defaultFastModel: string,
    recommendedModels: seq<string>)

  /** The provider state `update_models` writes. */
  datatype ModelState = ModelState(
    models: seq<LanguageModel>,
    defaultModel: Option<LanguageModel>,
    defaultFastModel: Option<LanguageModel>,
    recommendedModels: seq<LanguageModel>)

  const ThinkingIdSuffix: string := "-thinking"
  const ThinkingNameSuffix: string := " Thinking"

  /** The separate "thinking" model the client adds for a model that supports
      thinking: suffixed id and display name, every other field copied. */
  function ThinkingVariant(m: LanguageModel): (v: LanguageModel)
    ensures |v.id| == |m.id| + |ThinkingIdSuffix|
    ensures StartsWith(v.id, m.id) && EndsWith(v.id, ThinkingIdSuffix)
    ensures |v.displayName| == |m.displayName| + |ThinkingNameSuffix|
    ensures StartsWith(v.displayName, m.displayName) && EndsWith(v.displayName, ThinkingNameSuffix)
    ensures v.(id := m.id, displayName := m.displayName) == m
  {
    m.(id := m.id + ThinkingIdSuffix, displayName := m.displayName + ThinkingNameSuffix)
  }

  /** The entries one response model contributes, in order. */
  function Entries(m: LanguageModel): seq<LanguageModel> {
    if m.supportsThinking then [m, ThinkingVariant(m)] else [m]
  }

  function CountThinking(ms: seq<LanguageModel>): nat
    decreases |ms|
  {
    if |ms| == 0 then 0
    else CountThinking(ms[..|ms| - 1]) + (if ms[|ms| - 1].supportsThinking then 1 else 0)
  }

  /** The loop over `response.models`, pushing each model and then its
      thinking variant. */
  function ExpandModels(ms: seq<LanguageModel>): (r: seq<LanguageModel>)
    ensures |r| == |ms| + CountThinking(ms)
    decreases |ms|
  {
    if |ms| == 0 then []
    else ExpandModels(ms[..|ms| - 1]) + Entries(ms[|ms| - 1])
  }

  /** Where response model `i` lands in the expanded list. */
  function Position(ms: seq<LanguageModel>, i: nat): nat
    requires i <= |ms|
  {
    i + CountThinking(ms[..i])
  }

  /** Each response model appears at its position, its thinking variant (if
      any) right after it, and the expanded list has one entry per model plus
      one per thinking model. */
  lemma {:induction false} ExpandModelsPlacesEntries(ms: seq<LanguageModel>, i: nat)
    requires i < |ms|
    ensures var r := ExpandModels(ms);
      && Position(ms, i) < |r|
      && r[Position(ms, i)] == ms[i]
      && (ms[i].supportsThinking ==>
            Position(ms, i) + 1 < |r| && r[Position(ms, i) + 1] == ThinkingVariant(ms[i]))
    decreases |ms|
  {
    var n := |ms| - 1;
    var prefix := ms[..n];
    var r := ExpandModels(ms);
    assert r == ExpandModels(prefix) + Entries(ms[n]);
    if i == n {
      assert ms[..i] == prefix;
      assert |ExpandModels(prefix)| == Position(ms, i);
    } else {
      ExpandModelsPlacesEntries(prefix, i);
      assert prefix[i] == ms[i];
      assert prefix[..i] == ms[..i];
    }
  }

  /** The index of the first model with id `id` (`iter().find`). */
  function FirstIndex(models: seq<LanguageModel>, id: string): (r: Option<nat>)
    ensures r.Some? ==> r.value < |models| && models[r.value].id == id
    ensures r.Some? ==> forall j :: 0 <= j < r.value ==> models[j].id != id
    ensures r.None? ==> forall j :: 0 <= j < |models| ==> models[j].id != id
    decreases |models|
  {
    if |models| == 0 then None
    else if models[0].id == id then Some(0)
    else match FirstIndex(models[1..], id)
      case None => None
      case Some(k) => Some(k + 1)
  }

  /** The first model with id `id`, if there is one. */
  function FindById(models: seq<LanguageModel>, id: string): (r: Option<LanguageModel>)
    ensures r.Some? <==> exists j :: 0 <= j < |models| && models[j].id == id
    ensures r.Some? ==> r.value == models[FirstIndex(models, id).value]
  {
    match FirstIndex(models, id)
    case None => None
    case Some(k) => Some(models[k])
  }

  /** `m` is the first model in `models` whose id is `id`. */
  predicate IsFirstWithId(models: seq<LanguageModel>, id: string, m: LanguageModel) {
    exists k :: 0 <= k < |models| && models[k] == m && m.id == id
      && forall j :: 0 <= j < k ==> models[j].id != id
  }

  /** The ids that name some model, in their original order. */
  function KnownIds(models: seq<LanguageModel>, ids: seq<string>): seq<string>
    decreases |ids|
  {
    if |ids| == 0 then []
    else (if FindById(models, ids[0]).Some? then [ids[0]] else []) + KnownIds(models, ids[1..])
  }

  /** `recommended_models.iter().filter_map(find)`. */
  function Recommended(models: seq<LanguageModel>, ids: seq<string>): (r: seq<LanguageModel>)
    ensures |r| <= |ids|
    decreases |ids|
  {
    if |ids| == 0 then []
    else
      match FindById(models, ids[0])
      case Some(m) => [m] + Recommended(models, ids[1..])
      case None => Recommended(models, ids[1..])
  }

  /** The recommended list follows the response's ids in order, leaving out
      ids that name no model; each entry is the first model with that id. */
  lemma {:induction false} RecommendedFollowsIds(models: seq<LanguageModel>, ids: seq<string>)
    ensures var r := Recommended(models, ids);
      var known := KnownIds(models, ids);
      && |r| == |known|
      && forall k :: 0 <= k < |r| ==> r[k].id == known[k] && FindById(models, known[k]) == Some(r[k])
    decreases |ids|
  {
    if |ids| > 0 {
      RecommendedFollowsIds(models, ids[1..]);
      var r := Recommended(models, ids);
      var known := KnownIds(models, ids);
      var r' := Recommended(models, ids[1..]);
      var known' := KnownIds(models, ids[1..]);
      if FindById(models, ids[0]).Some? {
        assert r == [FindById(models, ids[0]).value] + r';
        assert known == [ids[0]] + known';
        forall k | 0 < k < |r|
          ensures r[k].id == known[k] && FindById(models, known[k]) == Some(r[k])
        {
          assert r[k] == r'[k - 1] && known[k] == known'[k - 1];
        }
      } else {
        assert r == r' && known == known';
      }
    }
  }

  /** Every known id is an id of some model, and every id left out is unknown. */
  lemma {:induction false} KnownIdsAreKnown(models: seq<LanguageModel>, ids: seq<string>)
    ensures forall k :: 0 <= k < |KnownIds(models, ids)| ==> FindById(models, KnownIds(models, ids)[k]).Some?
    ensures forall id :: id in ids && FindById(models, id).Some? ==> id in KnownIds(models, ids)
    decreases |ids|
  {
    if |ids| > 0 {
      KnownIdsAreKnown(models, ids[1..]);
      var known := KnownIds(models, ids);
      var known' := KnownIds(models, ids[1..]);
      if FindById(models, ids[0]).Some? {
        assert known == [ids[0]] + known';
        forall k | 0 < k < |known|
          ensures FindById(models, known[k]).Some?
        {
          assert known[k] == known'[k - 1];
        }
      } else {
        assert known == known';
      }
      forall id | id in ids && FindById(models, id).Some?
        ensures id in known
      {
        if id != ids[0] {
          assert id in ids[1..];
        }
      }
    }
  }

  /** `State::update_models`. */
  function UpdateModels(response: ListModelsResponse): (s: ModelState)
    ensures s.models == ExpandModels(response.models)
    ensures |s.models| == |response.models| + CountThinking(response.models)
    ensures s.defaultModel.Some? ==> IsFirstWithId(s.models, response.defaultModel, s.defaultModel.value)
    ensures s.defaultModel.None? ==> forall m :: m in s.models ==> m.id != response.defaultModel
    ensures s.defaultFastModel.Some? ==>
      IsFirstWithId(s.models, response.defaultFastModel, s.defaultFastModel.value)
    ensures s.defaultFastModel.None? ==> forall m :: m in s.models ==> m.id != response.defaultFastModel
    ensures |s.recommendedModels| <= |response.recommendedModels|
    ensures forall m :: m in s.recommendedModels ==> m in s.models && m.id in response.recommendedModels
    ensures var known := KnownIds(s.models, response.recommendedModels);
      && |s.recommendedModels| == |known|
      && forall k :: 0 <= k < |known| ==>
        s.recommendedModels[k].id == known[k] && FindById(s.models, known[k]) == Some(s.recommendedModels[k])
  {
    var models := ExpandModels(response.models);
    var rec := Recommended(models, response.recommendedModels);
    RecommendedFollowsIds(models, response.recommendedModels);
    RecommendedMembers(models, response.recommendedModels);
    ModelState(
      models,
      FindById(models, response.defaultModel),
      FindById(models, response.defaultFastModel),
      rec)
  }

  lemma {:induction false} RecommendedMembers(models: seq<LanguageModel>, ids: seq<string>)
    ensures forall m :: m in Recommended(models, ids) ==> m in models && m.id in ids
    decreases |ids|
  {
    if |ids| > 0 {
      RecommendedMembers(models, ids[1..]);
    }
  }
}

=== FILE: orchestrator.dfy ===
/** `perform_llm_completion`: send the completion request, retry once with a
    refreshed token when the relay says the token expired, and sort every
    other outcome into success flags or one failure. The HTTP transport and
    the token authority are inputs: the transport is the list of answers to
    the requests in the order they are sent, the token authority is the
    result of the initial acquire and of the (single) refresh. */
module Orchestrator {
  import opened Wrappers
  import opened Http
  import opened Classifier

  type Token = string

  /** What the transport does with one request. */
  datatype Exchange = Answered(response: Response) | SendFailed

  /** The plan carried by a model-request-limit error (`proto::Plan`). */
  datatype Plan = Free | ZedPro | ZedProTrial

  /** `MODEL_REQUESTS_RESOURCE_HEADER_VALUE`: the subscription-limit resource
      that names the model-request quota. */
  const ModelRequestsResource: string := "model_requests"

  /** The relay's plan names mapped to the client's plan names. */
  function ProtoPlan(p: CloudPlan): (r: Plan)
    ensures r.Free? <==> p.ZedFree?
    ensures r.ZedPro? <==> p.ZedPro?
    ensures r.ZedProTrial? <==> p.ZedProTrial?
  {
    match p
    case ZedFree => Plan.Free
    case ZedPro => Plan.ZedPro
    case ZedProTrial => Plan.ZedProTrial
  }

  /** The reverse mapping; together with `ProtoPlan` a bijection. */
  function CloudPlanOf(p: Plan): (r: CloudPlan)
  {
    match p
    case Free => CloudPlan.ZedFree
    case ZedPro => CloudPlan.ZedPro
    case ZedProTrial => CloudPlan.ZedProTrial
  }

  lemma ProtoPlanRoundTrip(p: CloudPlan, q: Plan)
    ensures CloudPlanOf(ProtoPlan(p)) == p
    ensures ProtoPlan(CloudPlanOf(q)) == q
  {
  }

  /** Why a call failed. `TokenUnavailable`: acquiring or refreshing the
      token failed; `SendFailure`: the transport gave no response;
      `BodyUnreadable`: the error body could not be read; the rest are the
      failures `perform_llm_completion` constructs itself. */
  datatype Failure =
    | TokenUnavailable
    | SendFailure
    | BodyUnreadable
    | ModelRequestLimitReached(plan: Plan)
    | PaymentRequiredError
    | ApiFailure(error: ApiError)

  /** `PerformLlmCompletionResponse`. */
  datatype Completion = Completion(
    response: Response,
    usage: Option<Usage>,
    toolUseLimitReached: bool,
    includesStatusMessages: bool)

  /** The result of a call together with the token each request carried,
      in the order the requests were sent. */
  datatype Attempt = Attempt(result: Result<Completion, Failure>, sent: seq<Token>)

  /** The flags read off a successful response. Usage comes from the headers
      only when the server does not speak the status-message envelope (it then
      reports usage in-band instead). */
  function SuccessFlags(resp: Response): (c: Completion)
    requires IsSuccess(resp.status)
    ensures c.response == resp
    ensures c.includesStatusMessages <==> resp.headers.serverSupportsStatusMessages
    ensures c.toolUseLimitReached <==> resp.headers.toolUseLimitReached
    ensures c.includesStatusMessages ==> c.usage.None?
    ensures !c.includesStatusMessages ==> c.usage == resp.headers.usage
  {
    var includes := resp.headers.serverSupportsStatusMessages;
    Completion(resp, if includes then None else resp.headers.usage,
               resp.headers.toolUseLimitReached, includes)
  }

  /** True when a 403 names the model-request quota and carries a known plan. */
  predicate IsModelRequestLimit(resp: Response) {
    && resp.status == Forbidden
    && resp.headers.limitResource == Text(ModelRequestsResource)
    && resp.headers.plan.Some?
  }

  /** The failure for a non-success response that does not lead to a retry. */
  function FailureFor(resp: Response): (f: Failure)
    requires !IsSuccess(resp.status)
    ensures f.ModelRequestLimitReached? <==> IsModelRequestLimit(resp)
    ensures f.ModelRequestLimitReached? ==> f.plan == ProtoPlan(resp.headers.plan.value)
    ensures f.PaymentRequiredError? <==> resp.status == PaymentRequired
    ensures f.ApiFailure? <==>
      !IsModelRequestLimit(resp) && resp.status != PaymentRequired && ReadToString(resp.body).Some?
    ensures f.ApiFailure? ==>
      f.error == ApiError(resp.status, ReadToString(resp.body).value, resp.headers)
    ensures f.BodyUnreadable? <==>
      !IsModelRequestLimit(resp) && resp.status != PaymentRequired && ReadToString(resp.body).None?
    ensures !f.TokenUnavailable? && !f.SendFailure?
  {
    var limitHit :=
      if resp.status == Forbidden && resp.headers.limitResource.IsPresent() then
        if resp.headers.limitResource == Text(ModelRequestsResource) && resp.headers.plan.Some? then
          Some(ModelRequestLimitReached(ProtoPlan(resp.headers.plan.value)))
        else None
      else if resp.status == PaymentRequired then Some(PaymentRequiredError)
      else None;
    match limitHit
    case Some(f) => f
    case None =>
      match ReadToString(resp.body)
      case None => BodyUnreadable
      case Some(text) => ApiFailure(ApiError(resp.status, text, resp.headers))
  }

  /** One turn of the request loop, sending with `token`; `refreshed` is the
      loop's guard that the one permitted refresh has already happened. */
  function PerformLoop(token: Token, refreshed: bool, refresh: Option<Token>,
                       transport: seq<Exchange>, sent: seq<Token>): (a: Attempt)
    ensures |sent| < |a.sent| <= |sent| + (if refreshed then 1 else 2)
    ensures a.sent[..|sent|] == sent && a.sent[|sent|] == token
    ensures |a.sent| == |sent| + 2 ==> refresh.Some? && a.sent[|sent| + 1] == refresh.value
    ensures !AnswerArrives(transport) ==> a == Attempt(Err(SendFailure), sent + [token])
    ensures AnswerArrives(transport) && IsSuccess(transport[0].response.status) ==>
      a == Attempt(Ok(SuccessFlags(transport[0].response)), sent + [token])
    ensures FirstAnswerFails(transport) && (refreshed || !transport[0].response.headers.expiredToken) ==>
      a == Attempt(Err(FailureFor(transport[0].response)), sent + [token])
    ensures FirstAnswerExpired(transport) && !refreshed && refresh.None? ==>
      a == Attempt(Err(TokenUnavailable), sent + [token])
    ensures a.result == Err(TokenUnavailable) <==> FirstAnswerExpired(transport) && !refreshed && refresh.None?
    decreases if refreshed then 0 else 1
  {
    var sent' := sent + [token];
    if |transport| == 0 || transport[0].SendFailed? then Attempt(Err(SendFailure), sent')
    else
      var resp := transport[0].response;
      if IsSuccess(resp.status) then Attempt(Ok(SuccessFlags(resp)), sent')
      else if !refreshed && resp.headers.expiredToken then
        match refresh
        case None => Attempt(Err(TokenUnavailable), sent')
        case Some(renewed) =>
          var a := PerformLoop(renewed, true, refresh, transport[1..], sent');
          assert a.sent[..|sent|] == a.sent[..|sent'|][..|sent|];
          a
      else Attempt(Err(FailureFor(resp)), sent')
  }

  /** `perform_llm_completion`: acquire a token, then run the request loop. */
  function PerformLlmCompletion(acquire: Option<Token>, refresh: Option<Token>,
                                transport: seq<Exchange>): (a: Attempt)
    ensures acquire.None? <==> a.sent == []
    ensures acquire.None? ==> a.result == Err(TokenUnavailable)
    ensures acquire.Some? ==> 1 <= |a.sent| <= 2 && a.sent[0] == acquire.value
    ensures |a.sent| == 2 ==> refresh.Some? && a.sent[1] == refresh.value
    ensures a.result == Err(TokenUnavailable) <==>
      acquire.None? || (FirstAnswerExpired(transport) && refresh.None?)
    ensures a.result == Err(SendFailure) ==> acquire.Some?
    ensures acquire.Some? && !AnswerArrives(transport) ==>
      a == Attempt(Err(SendFailure), [acquire.value])
    ensures acquire.Some? && AnswerArrives(transport) && IsSuccess(transport[0].response.status) ==>
      a == Attempt(Ok(SuccessFlags(transport[0].response)), [acquire.value])
  {
    match acquire
    case None => Attempt(Err(TokenUnavailable), [])
    case Some(token) => PerformLoop(token, false, refresh, transport, [])
  }

  /** The first request gets an answer (the transport is neither exhausted nor failing). */
  predicate AnswerArrives(transport: seq<Exchange>) {
    |transport| > 0 && transport[0].Answered?
  }

  /** The first answer is a failure. */
  predicate FirstAnswerFails(transport: seq<Exchange>) {
    AnswerArrives(transport) && !IsSuccess(transport[0].response.status)
  }

  /** The first answer is a failure carrying the expired-token header. */
  predicate FirstAnswerExpired(transport: seq<Exchange>) {
    FirstAnswerFails(transport) && transport[0].response.headers.expiredToken
  }

  /** A first failure without the expired-token header is final: one
      request, and the failure `FailureFor` assigns to that answer. */
  lemma FirstFailureIsDispatched(token: Token, refresh: Option<Token>, transport: seq<Exchange>)
    requires FirstAnswerFails(transport) && !transport[0].response.headers.expiredToken
    ensures PerformLlmCompletion(Some(token), refresh, transport)
      == Attempt(Err(FailureFor(transport[0].response)), [token])
  {
  }

  /** A plain 402 ends the call with `PaymentRequiredError`, and a plain
      quota 403 with `ModelRequestLimitReached` for the reported plan. */
  lemma PlainPaymentAndQuotaFailures(token: Token, refresh: Option<Token>, transport: seq<Exchange>)
    requires AnswerArrives(transport) && !transport[0].response.headers.expiredToken
    ensures transport[0].response.status == PaymentRequired ==>
      PerformLlmCompletion(Some(token), refresh, transport).result == Err(PaymentRequiredError)
    ensures IsModelRequestLimit(transport[0].response) ==>
      PerformLlmCompletion(Some(token), refresh, transport).result
        == Err(ModelRequestLimitReached(ProtoPlan(transport[0].response.headers.plan.value)))
  {
    if !IsSuccess(transport[0].response.status) {
      FirstFailureIsDispatched(token, refresh, transport);
    }
  }

  /** A second request is sent exactly when the first answer is an
      expired-token failure and the refresh succeeds; the retry then carries
      the refreshed token and its outcome is decided by the second answer
      alone, with no further refresh. */
  lemma {:induction false} RetryExactlyOnExpiry(acquire: Option<Token>, refresh: Option<Token>,
                                                transport: seq<Exchange>)
    requires acquire.Some?
    ensures var a := PerformLlmCompletion(acquire, refresh, transport);
      |a.sent| == 2 <==> FirstAnswerExpired(transport) && refresh.Some?
    ensures FirstAnswerExpired(transport) && refresh.Some? ==>
      PerformLlmCompletion(acquire, refresh, transport)
        == PerformLoop(refresh.value, true, refresh, transport[1..], [acquire.value])
  {
  }

  /** The expiry check comes before the 403 and 402 checks: a 402 or a
      quota 403 with the expired-token header on the first answer is retried. */
  lemma ExpiryBeforePaymentAndQuota(token: Token, renewed: Token, transport: seq<Exchange>)
    requires FirstAnswerExpired(transport)
    requires transport[0].response.status == PaymentRequired || IsModelRequestLimit(transport[0].response)
    ensures |PerformLlmCompletion(Some(token), Some(renewed), transport).sent| == 2
  {
  }

  /** A second expired-token failure is not retried: it is classified like
      any other failure. */
  lemma SecondExpiryIsTerminal(token: Token, renewed: Token, transport: seq<Exchange>)
    requires FirstAnswerExpired(transport)
    requires FirstAnswerExpired(transport[1..])
    ensures PerformLlmCompletion(Some(token), Some(renewed), transport)
      == Attempt(Err(FailureFor(transport[1].response)), [token, renewed])
  {
  }

  /** A successful call hands back the last answer with its flags. */
  lemma SuccessComesFromLastAnswer(acquire: Option<Token>, refresh: Option<Token>,
                                   transport: seq<Exchange>)
    requires PerformLlmCompletion(acquire, refresh, transport).result.Ok?
    ensures var a := PerformLlmCompletion(acquire, refresh, transport);
      var k := |a.sent| - 1;
      && k < |transport| && transport[k].Answered?
      && IsSuccess(transport[k].response.status)
      && a.result.value == SuccessFlags(transport[k].response)
  {
  }
}

=== FILE: pipeline.dfy ===
/** The three provider arms of `stream_completion`: run the completion call,
    then either surface its failure or decode the body, chain the trailers
    and map the events through the provider's mapper. The arms differ in the
    request encoder and the mapper (both abstract here) and, as written, in
    how they surface failures. */
module Pipeline {
  import opened Wrappers
  import opened Text
  import opened Http
  import opened Errors
  import opened Classifier
  import opened Orchestrator
  import opened Events
  import opened Models

  /** The error a provider arm hands back: either classified into a
      `LanguageModelCompletionError`, or the completion call's failure as is. */
  datatype Surfaced = Classified(error: CompletionError) | Unclassified(failure: Failure)

  /** Failure surfacing as written: only the Anthropic arm downcasts an
      `ApiError` and classifies it; the OpenAI and Google arms propagate
      every failure unchanged. */
  function SurfaceFailureAsWritten(provider: ProviderKind, f: Failure,
                                   decode: string -> Option<RawEnvelope>): (r: Outcome<Surfaced>)
    ensures provider != Anthropic ==> r == Returns(Unclassified(f))
    ensures r.Panics? <==> provider == Anthropic && f.ApiFailure? && ClassifyAsWritten(f.error, decode).Panics?
    ensures provider == Anthropic && !f.ApiFailure? ==> r == Returns(Unclassified(f))
    ensures provider == Anthropic && f.ApiFailure? && r.Returns? ==> r.value == Classified(Classify(f.error, decode))
  {
    match provider
    case Anthropic =>
      if f.ApiFailure? then
        ClassifyAgreesUnlessPanic(f.error, decode);
        match ClassifyAsWritten(f.error, decode)
        case Panics => Panics
        case Returns(e) => Returns(Classified(e))
      else Returns(Unclassified(f))
    case OpenAi => Returns(Unclassified(f))
    case Google => Returns(Unclassified(f))
  }

  /** Failure surfacing as every arm should do it: a failed response is
      classified, any other failure is propagated unchanged. */
  function SurfaceFailure(f: Failure, decode: string -> Option<RawEnvelope>): (r: Surfaced)
    ensures r.Classified? <==> f.ApiFailure?
    ensures r.Classified? ==> r.error == Classify(f.error, decode)
    ensures r.Unclassified? ==> r.failure == f
  {
    if f.ApiFailure? then Classified(Classify(f.error, decode)) else Unclassified(f)
  }

  /** As written, the same upstream 429 reaches an Anthropic caller as an
      `UpstreamProviderError` but an OpenAI or Google caller as a raw failure. */
  lemma ArmsDisagreeOnUpstreamErrors(err: ApiError, decode: string -> Option<RawEnvelope>)
    requires decode(err.body) == Some(RawEnvelope("upstream_http_429", "rate limited", None, None))
    ensures SurfaceFailureAsWritten(Anthropic, ApiFailure(err), decode)
      == Returns(Classified(UpstreamProviderError("rate limited", 429, None)))
    ensures SurfaceFailureAsWritten(OpenAi, ApiFailure(err), decode) == Returns(Unclassified(ApiFailure(err)))
    ensures SurfaceFailureAsWritten(Google, ApiFailure(err), decode) == Returns(Unclassified(ApiFailure(err)))
  {
    assert DecimalString(429) == "429";
    NumericCodeGivesItsStatus(err, 429, decode);
  }

  /** A failed response whose upstream envelope carries `retry_after` -1
      makes the Anthropic arm as written panic; the other arms pass it on. */
  lemma AnthropicArmPanicsOnNegativeRetry(err: ApiError, decode: string -> Option<RawEnvelope>)
    requires decode(err.body) == Some(RawEnvelope("upstream_http_429", "rate limited", None, Some(-1.0)))
    ensures SurfaceFailureAsWritten(Anthropic, ApiFailure(err), decode).Panics?
    ensures SurfaceFailureAsWritten(OpenAi, ApiFailure(err), decode) == Returns(Unclassified(ApiFailure(err)))
  {
  }

  /** The corrected surfacing is what the Anthropic arm does wherever that
      arm does not panic. */
  lemma SurfaceFailureMatchesAnthropicArm(f: Failure, decode: string -> Option<RawEnvelope>)
    ensures SurfaceFailureAsWritten(Anthropic, f, decode).Returns? ==>
      SurfaceFailureAsWritten(Anthropic, f, decode).value == SurfaceFailure(f, decode)
  {
    if f.ApiFailure? {
      ClassifyAgreesUnlessPanic(f.error, decode);
    }
  }

  /** The caller-facing stream of a provider arm with both corrections of
      Findings applied: failures surface through the total classifier in
      every arm. `StreamCompletionAsWritten` is the arms as the code has them. */
  function StreamCompletion<S, T, C>(acquire: Option<Token>, refresh: Option<Token>, transport: seq<Exchange>,
                                     decode: string -> Option<RawEnvelope>, parsers: LineParsers<T>,
                                     initial: S, mapper: Mapper<S, T, C>)
    : (r: Result<seq<Result<LanguageModelEvent<C>, CompletionError>>, Surfaced>)
    ensures var a := PerformLlmCompletion(acquire, refresh, transport);
      (r.Ok? <==> a.result.Ok?) && (r.Err? ==> r.error == SurfaceFailure(a.result.error, decode))
    ensures r.Ok? ==>
      var c := PerformLlmCompletion(acquire, refresh, transport).result.value;
      r.value == MapCloudCompletionEvents(ResponseLines(c.response.body, c.includesStatusMessages, parsers),
                                          initial, mapper) + TrailerUpdates(c)
  {
    var a := PerformLlmCompletion(acquire, refresh, transport);
    match a.result
    case Err(f) => Err(SurfaceFailure(f, decode))
    case Ok(c) =>
      StreamEndsWithTrailers(c, parsers, initial, mapper);
      Ok(MapCloudCompletionEvents(DecodedStream(c, parsers), initial, mapper))
  }

  /** A provider arm as written: the same stream on success, and failures
      surfaced as that arm does it (which for Anthropic may panic). */
  function StreamCompletionAsWritten<S, T, C>(provider: ProviderKind, acquire: Option<Token>, refresh: Option<Token>,
                                              transport: seq<Exchange>, decode: string -> Option<RawEnvelope>,
                                              parsers: LineParsers<T>, initial: S, mapper: Mapper<S, T, C>)
    : (r: Outcome<Result<seq<Result<LanguageModelEvent<C>, CompletionError>>, Surfaced>>)
    ensures var a := PerformLlmCompletion(acquire, refresh, transport);
      a.result.Ok? ==> r.Returns? && r.value.Ok?
    ensures var a := PerformLlmCompletion(acquire, refresh, transport);
      r.Panics? <==>
        && provider == Anthropic && a.result.Err? && a.result.error.ApiFailure?
        && ClassifyAsWritten(a.result.error.error, decode).Panics?
    ensures provider != Anthropic && r.Returns? && r.value.Err? ==>
      r.value.error == Unclassified(PerformLlmCompletion(acquire, refresh, transport).result.error)
  {
    var a := PerformLlmCompletion(acquire, refresh, transport);
    match a.result
    case Err(f) =>
      (match SurfaceFailureAsWritten(provider, f, decode)
       case Panics => Panics
       case Returns(e) => Returns(Err(e)))
    case Ok(c) => Returns(Ok(MapCloudCompletionEvents(DecodedStream(c, parsers), initial, mapper)))
  }

  /** Every arm as written yields the same stream as the corrected composition
      on success; the Anthropic arm agrees with it everywhere it does not panic,
      while the OpenAI and Google arms differ exactly on failed responses
      (`ApiFailure`), which they pass on unclassified. */
  lemma StreamCompletionAsWrittenAgrees<S, T, C>(provider: ProviderKind, acquire: Option<Token>, refresh: Option<Token>,
                                                 transport: seq<Exchange>, decode: string -> Option<RawEnvelope>,
                                                 parsers: LineParsers<T>, initial: S, mapper: Mapper<S, T, C>)
    ensures var w := StreamCompletionAsWritten(provider, acquire, refresh, transport, decode, parsers, initial, mapper);
      var r := StreamCompletion(acquire, refresh, transport, decode, parsers, initial, mapper);
      && (r.Ok? ==> w == Returns(r))
      && (provider == Anthropic && w.Returns? ==> w.value == r)
      && (provider != Anthropic ==>
            (w.value == r <==> r.Ok? || !PerformLlmCompletion(acquire, refresh, transport).result.error.ApiFailure?))
  {
  }

  /** The status updates the trailers become. */
  function TrailerUpdates<C>(c: Completion): seq<Result<LanguageModelEvent<C>, CompletionError>> {
    (if c.usage.Some? then [Ok(StatusUpdate(UsageUpdated(c.usage.value.amount, c.usage.value.limit)))] else [])
    + (if c.toolUseLimitReached then [Ok(StatusUpdate(ToolUseLimitReached))] else [])
  }

  /** The caller-facing stream is the mapped wire events followed by a usage
      update iff usage was captured and a tool-limit update iff the flag was
      set; the trailers never reach the provider mapper. */
  lemma StreamEndsWithTrailers<S, T, C>(c: Completion, parsers: LineParsers<T>, initial: S, mapper: Mapper<S, T, C>)
    ensures var lines := ResponseLines(c.response.body, c.includesStatusMessages, parsers);
      MapCloudCompletionEvents(DecodedStream(c, parsers), initial, mapper)
        == MapCloudCompletionEvents(lines, initial, mapper) + TrailerUpdates(c)
    ensures var lines := ResponseLines(c.response.body, c.includesStatusMessages, parsers);
      FinalState(DecodedStream(c, parsers), initial, mapper) == FinalState(lines, initial, mapper)
  {
    var lines := ResponseLines(c.response.body, c.includesStatusMessages, parsers);
    var usage: seq<Result<CompletionEvent<T>, DecodeError>> := UsageUpdatedEvent(c.usage);
    var tool: seq<Result<CompletionEvent<T>, DecodeError>> := ToolUseLimitReachedEvent(c.toolUseLimitReached);
    var s1 := FinalState(lines, initial, mapper);
    MapDistributes(lines, usage + tool, initial, mapper);
    MapDistributes(usage, tool, s1, mapper);
    var s2 := FinalState(usage, s1, mapper);
    if c.usage.Some? {
      MapSingle(usage[0], s1, mapper);
      assert usage == [usage[0]];
    }
    assert s2 == s1;
    if c.toolUseLimitReached {
      MapSingle(tool[0], s2, mapper);
      assert tool == [tool[0]];
    }
    assert lines + (usage + tool) == lines + usage + tool;
  }
}

=== FILE: text.dfy ===
/** String helpers with the semantics of the Rust standard library calls the
    client makes: `starts_with`, `ends_with`, `strip_prefix` and `str::parse::<u16>`. */
module Text {
  import opened Wrappers

  predicate StartsWith(s: string, prefix: string) {
    |prefix| <= |s| && s[..|prefix|] == prefix
  }

  predicate EndsWith(s: string, suffix: string) {
    |suffix| <= |s| && s[|s| - |suffix|..] == suffix
  }

  /** `str::strip_prefix`: the rest of `s` after `prefix`, if `s` starts with it. */
  function StripPrefix(s: string, prefix: string): (r: Option<string>)
    ensures r.Some? <==> StartsWith(s, prefix)
    ensures r.Some? ==> prefix + r.value == s
  {
    if StartsWith(s, prefix) then
      assert s == s[..|prefix|] + s[|prefix|..];
      Some(s[|prefix|..])
    else None
  }

  predicate IsDigit(c: char) {
    '0' <= c <= '9'
  }

  predicate AllDigits(s: string) {
    forall i :: 0 <= i < |s| ==> IsDigit(s[i])
  }

  function DigitValue(c: char): nat
    requires IsDigit(c)
  {
    (c as int) - ('0' as int)
  }

  function DigitChar(d: nat): (c: char)
    requires d < 10
    ensures IsDigit(c) && DigitValue(c) == d
  {
    (('0' as int) + d) as char
  }

  /** The number a string of decimal digits denotes (most significant digit first). */
  function DigitsValue(s: string): nat
    requires AllDigits(s)
  {
    if |s| == 0 then 0
    else DigitsValue(s[..|s| - 1]) * 10 + DigitValue(s[|s| - 1])
  }

  const U16Max: nat := 65535

  /** The text after an optional leading '+' sign. */
  function UnsignedPart(s: string): (digits: string)
    ensures s == digits || s == "+" + digits
  {
    if |s| > 0 && s[0] == '+' then s[1..] else s
  }

  /** `s.parse::<u16>()`: an optional leading '+', then one or more ASCII digits
      (leading zeros allowed) whose value fits in 16 bits. A '-' sign is never
      accepted for an unsigned type. */
  function ParseU16(s: string): (r: Option<nat>)
    ensures r.Some? <==>
      var digits := UnsignedPart(s);
      |digits| > 0 && AllDigits(digits) && DigitsValue(digits) <= U16Max
    ensures r.Some? ==> r.value == DigitsValue(UnsignedPart(s)) && r.value <= U16Max
    ensures r.Some? ==> |s| > 0 && (IsDigit(s[0]) || s[0] == '+')
  {
    var digits := if |s| > 0 && s[0] == '+' then s[1..] else s;
    if |digits| == 0 || !AllDigits(digits) then None
    else
      var v := DigitsValue(digits);
      if v <= U16Max then Some(v) else None
  }

  /** Canonical decimal rendering of a natural number (no sign, no leading zeros). */
  function DecimalString(n: nat): (s: string)
    ensures |s| > 0 && AllDigits(s)
    decreases n
  {
    if n < 10 then [DigitChar(n)]
    else DecimalString(n / 10) + [DigitChar(n % 10)]
  }

  /** Reading back the canonical rendering gives the number again. */
  lemma {:induction false} DigitsValueOfDecimal(n: nat)
    ensures DigitsValue(DecimalString(n)) == n
    decreases n
  {
    if n >= 10 {
      var s := DecimalString(n);
      DigitsValueOfDecimal(n / 10);
      assert s[..|s| - 1] == DecimalString(n / 10);
    }
  }

  /** `parse::<u16>` inverts decimal rendering on the whole 16-bit range. */
  lemma ParseU16OfDecimal(n: nat)
    requires n <= U16Max
    ensures ParseU16(DecimalString(n)) == Some(n)
  {
    DigitsValueOfDecimal(n);
  }

  predicate AllZeros(z: string) {
    forall i :: 0 <= i < |z| ==> z[i] == '0'
  }

  lemma {:induction false} ZerosValueNothing(z: string)
    requires AllZeros(z)
    ensures AllDigits(z) && DigitsValue(z) == 0
    decreases |z|
  {
    if |z| > 0 {
      ZerosValueNothing(z[..|z| - 1]);
    }
  }

  /** Leading zeros do not change the value of a digit string. */
  lemma {:induction false} LeadingZerosAddNothing(z: string, s: string)
    requires AllZeros(z) && AllDigits(s)
    ensures AllDigits(z + s) && DigitsValue(z + s) == DigitsValue(s)
    decreases |s|
  {
    if |s| == 0 {
      assert z + s == z;
      ZerosValueNothing(z);
    } else {
      LeadingZerosAddNothing(z, s[..|s| - 1]);
      assert (z + s)[..|z + s| - 1] == z + s[..|s| - 1];
    }
  }

  /** `parse::<u16>` also accepts a '+' sign and leading zeros in front of
      the decimal rendering, and still yields the same number. */
  lemma SignAndLeadingZerosAccepted(z: string, n: nat)
    requires AllZeros(z) && n <= U16Max
    ensures ParseU16(z + DecimalString(n)) == Some(n)
    ensures ParseU16("+" + z + DecimalString(n)) == Some(n)
  {
    var d := DecimalString(n);
    var u := z + d;
    DigitsValueOfDecimal(n);
    LeadingZerosAddNothing(z, d);
    assert DigitsValue(u) == n;
    assert IsDigit(u[0]);
    assert UnsignedPart(u) == u;
    assert ("+" + z + d)[1..] == u;
    assert UnsignedPart("+" + z + d) == u;
  }

  /** A string whose last character is a digit does not end in a suffix
      whose last character is not. */
  lemma DigitEndDoesNotEndWith(s: string, suffix: string)
    requires |s| > 0 && IsDigit(s[|s| - 1])
    requires |suffix| > 0 && !IsDigit(suffix[|suffix| - 1])
    ensures !EndsWith(s, suffix)
  {
  }
}

=== FILE: wrappers.dfy ===
/** Failure-carrying datatypes shared by the model of the cloud completion client.
    Rust's `Option<T>` and `Result<T, E>` map onto these one-to-one. */
module Wrappers {

  datatype Option<+T> = None | Some(value: T)

  datatype Result<+T, +E> = Ok(value: T) | Err(error: E)
}
